=== FILE: README.md ===
# Kanban board index coordination, modelled in Dafny

This project models the core of a command-line kanban board. Tasks live in a
record store keyed by task name. Two derived indices are kept beside them:

- the column lists, which map the labels `todo`, `doing` and `done` to ordered task keys;
- the tag lists, which map a tag to the keys of the tasks carrying it.

The board coordinator keeps the three stores in step with short
read-modify-write sequences: create, get, update, remove, reindex, top-priority and
get-column. The command layer composes those operations:

- add, start, complete, delete, clear-done and top;
- `now`, which prints the tasks in progress;
- `tag`, which prints a task's tags.

Everything is modelled as immutable data and pure functions.

- `Stores.Store` is a record store: a map plus the order in which keys were first stored.
  Setting a new key appends it to the order. Setting an existing key keeps its place.
  Removing a key drops it.
- `Boards.Board` holds the record store, the column store and the tag store.
  The column and tag stores are maps from a string to a sequence of keys. A missing
  entry reads as the empty list.
- A panic of the source (`expect` on a key missing from a list, `unwrap` of a missing
  task) is an `Err(Fault)` result. The board is returned only when every step
  succeeds.

Two consistency invariants are defined in `BoardInvariants` and `TagInvariants`:

- `WellFormed`: the record store is valid, each record's name is its key, and each
  column list holds, without duplicates, exactly the keys of the records in that column.
- `TagsIndexed`: record tag lists have no duplicates, tag lists have no duplicates,
  and a key is in a tag's list exactly when its record carries that tag.

In the model these invariants are preserved under stated conditions:

- create preserves both when the key has no record yet;
- update preserves the column invariant when the new record's name is its key and its
  tag step succeeds;
- update preserves both invariants, and always succeeds, on a board that has both, when
  the new record's name is its key and its tag list has no duplicates;
- top-priority preserves the column invariant on any board that has it.

Reindex restores the column invariant from any valid store (each stored key listed
once in its order) whose records are keyed by name. Remove preserves the column invariant but breaks the tag invariant when the removed
task carries a tag: the source never un-indexes a deleted task's tags, and
`TagInvariants.RemoveLeavesStaleTag` shows it.

Behaviours of the code worth knowing, all modelled as written:

- A task's tags are an ordered list, not a set. Each tag list is de-duplicated only
  between neighbours (`Vec::dedup`). So pushing a key that is already in the list,
  but not last, adds a second copy.
- `update` moves a task between columns by calling the full `remove`, which also
  deletes the record and then stores it again. In the model's insertion-ordered
  store, the task's place in the enumeration order therefore moves to the end. The
  real backend's order after such a delete-then-store is not modelled.
- `create_task` on a key that already has a record overwrites the record and appends
  the key to the todo list. That lists the key twice in todo when the old record was in
  Todo, or leaves it listed in both its old column and todo otherwise
  (`BoardInvariants.CreateTaskOnExistingKeyBreaksIndex`).
- `get_column` with a tag that has no stored list returns nothing.
- `now` writes nothing when the joined names are empty. That includes a single task
  in progress whose name is empty.

## Model

| member | source | states |
|---|---|---|
| Seqs.IndexOf | src/board.rs:56-62 | Finding a key in a list gives nothing exactly when the key is absent; otherwise it gives the position of its first occurrence |
| Boards.AddToColumn | src/board.rs:36-41 | Adding to a column appends the key to the end of that column's list and touches no other list, record or tag |
| Boards.TagDiff | src/board.rs:78-105 | With no old tags, every new tag is added and none removed. Otherwise a tag is added iff it is new and not old, and removed iff it is old and not new. Both lists are order-keeping filters of the list they come from (`Seqs.Without`), so repeats and list order are kept; duplicate-free inputs give duplicate-free outputs |
| Boards.TagDiffByPushing | src/board.rs:78-105 | The two push loops of the source, run over the old and then the new list, build exactly the pair `TagDiff` describes |
| Seqs.WithoutSnoc | src/board.rs:91-101 | Filtering one more element pushes it exactly when it does not occur in the other list, which is one step of the source's push loop |
| Boards.IndexTags | src/board.rs:107-115 | Indexing a key under some tags pushes it onto each named tag's list and de-duplicates neighbours; other tags, records and columns are unchanged |
| BoardProperties.IndexTagsAppendsOnce | src/board.rs:107-115 | Indexing a key under a tag adds it at most once: the list is unchanged when the key is already last, otherwise it gains the key at its end |
| Seqs.DedupPush | src/board.rs:111-113 | On a list with no equal neighbours, push-then-dedup leaves the list alone if the pushed value is already last and appends it otherwise |
| Boards.RmTagIndex | src/board.rs:117-131 | Un-indexing leaves records, columns and unlisted tags alone, and fails when the key is not in the first tag's list. The source's panic message shows the tag and its list; the model's fault records the key and the tag instead |
| BoardProperties.RmTagIndexSingle | src/board.rs:117-131 | Un-indexing under one tag fails exactly when the key is not in its list (always when the tag has no list); otherwise it removes the key's first occurrence |
| BoardProperties.RmTagIndexDistinct | src/board.rs:117-131 | For distinct tags, un-indexing succeeds iff every tag lists the key, and then each tag's list loses the key's first occurrence |
| Boards.ColumnList | src/board.rs:43-48 | A label with a stored list reads as that list; a label without one reads as the empty list |
| Boards.GetAllTasks | src/board.rs:138-140 | All tasks are the stored records, one per key of the store's enumeration order, in that order |
| Boards.GetColumn | src/board.rs:142-161 | A column read returns, in order, the records of the keys that survive the column filter, one task per key |
| Boards.SelectKeys | src/board.rs:142-161 | A key survives the column filter iff it is in the column list, the tag filter admits it, and it has a record; freedom from duplicates is kept. Survivors keep their list order, as `BoardProperties.SelectKeysConcat` proves |
| BoardProperties.SelectKeysConcat | src/board.rs:142-161 | The column filter works key by key: filtering a concatenation is concatenating the filtered parts |
| BoardProperties.SelectKeysAll | src/board.rs:142-161 | Without a tag, every column key that has a record is kept, in order |
| BoardProperties.GetColumnUnknownTag | src/board.rs:148-157 | Filtering a column by a tag that has no stored list yields no tasks |
| BoardInvariants.GetColumnIsColumn | src/board.rs:142-161 | On a well-formed board, an unfiltered column read returns the tasks named by the column list, in list order, all in that column, and exactly the records in that column |
| BoardInvariants.GetColumnByTag | src/board.rs:142-161 | On a board with consistent indices, a tag-filtered column read returns exactly the tasks of that column carrying the tag |
| Boards.NewTask | src/board.rs:64-76 | A new task is named after its key, sits in Todo, has no description, and carries exactly the given tag, or no tag list when none is given |
| Boards.CreateTask | src/board.rs:163-172 | Creating stores a fresh Todo record (tagged when a tag is given), appends the key to the todo list, leaves other records and lists alone, and indexes the key under the tag |
| BoardProperties.CreateTaskQueuesInOrder | src/board.rs:322-339 | Creating two untagged tasks one after the other queues them in the todo list in creation order |
| BoardInvariants.CreateTaskPreservesWellFormed | src/board.rs:163-172 | Creating a task under a fresh key keeps the column index consistent |
| BoardInvariants.CreateTaskOnExistingKeyBreaksIndex | src/board.rs:163-172 | Creating a task under a key that already has a record breaks the column index: the key is listed twice in todo when the old record was in Todo, and otherwise stays listed in its old column while its record moves to Todo |
| TagInvariants.CreateTaskPreservesTagsIndexed | src/board.rs:163-172 | Creating a task under a fresh key keeps the tag index consistent |
| Boards.Get | src/board.rs:174-176 | Getting a key yields a task iff a record exists, and then that record |
| Boards.UpdateTags | src/board.rs:188-194 | The tag step of an update changes only the tag lists, never records or column lists |
| Boards.Update | src/board.rs:178-202 | Updating a missing key does nothing. Otherwise it fails iff the tag step fails or the column changes while the key is missing from its old list. On success it stores the new record and the tag step's lists. In place, columns and order are unchanged; on a move, the key leaves its old list and is appended to the new one |
| BoardProperties.UpdateToCurrent | src/board.rs:178-202 | Updating a task to the value it already holds leaves the whole board unchanged |
| BoardProperties.UpdateIdempotent | src/board.rs:178-202 | Applying a successful update a second time with the same task changes nothing |
| BoardInvariants.UpdatePreservesWellFormed | src/board.rs:178-202 | On a well-formed board, an update whose tag step succeeds succeeds and keeps the column index consistent |
| TagInvariants.UpdatePreservesIndices | src/board.rs:178-202 | On a board with consistent indices, updating with a duplicate-free tag list always succeeds and keeps both indices consistent |
| Boards.Remove | src/board.rs:204-222 | Removing a missing key does nothing. Otherwise it fails iff the key is not in its column's list. On success the record is gone, the key's first occurrence leaves its list, other lists are unchanged and tags are untouched |
| BoardInvariants.RemovePreservesWellFormed | src/board.rs:204-222 | On a well-formed board, removal always succeeds, drops exactly that record and keeps the column index consistent |
| TagInvariants.RemoveLeavesStaleTag | src/board.rs:204-222 | Removing a tagged task leaves its key in the tag's list without a record, so the tag index is no longer consistent |
| Boards.AppendAll | src/board.rs:228-231 | Re-adding tasks one by one extends each of the three column lists with the names of that column's tasks, in order, and touches no other label |
| Boards.ReindexColumns | src/board.rs:224-233 | Reindexing replaces the three column lists with the names of the records in each column, in store order. It keeps records and tags and reports the number of records |
| BoardProperties.ReindexIdempotent | src/board.rs:224-233 | Reindexing twice is the same as reindexing once |
| BoardInvariants.ReindexRestoresWellFormed | src/board.rs:224-233 | Reindexing any valid store whose records are keyed by name yields a well-formed board |
| BoardProperties.NamesInConcat | src/board.rs:228-231 | Collecting a column's names distributes over concatenating task sequences |
| Boards.TopPriority | src/board.rs:235-254 | Prioritising a missing key does nothing. Otherwise it fails iff the key is not in its column's list; on success the task's name moves to the front of that list, whose length is kept, and nothing else changes |
| BoardInvariants.TopPriorityPreservesWellFormed | src/board.rs:235-254 | On a well-formed board, prioritising always succeeds, keeps the column index consistent and puts the key at the head of its column |
| BoardInvariants.PrioritisedBehindHead | src/board.rs:235-254 | Prioritising a listed task whose column list starts with another task puts it first and that task second |
| BoardInvariants.TopPriorityStack | src/board.rs:544-573 | Prioritising two tasks of the same column in turn leaves the later one first and the earlier one second. Only the two tasks must be stored under their names and listed in their column; the rest of the board may be inconsistent, as in the source's test where a Todo task has no todo list |
| Tasks.Label | src/board.rs:50-54 | A column's label is a non-empty string of lower-case letters |
| Tasks.LabelInjective | src/board.rs:50-54 | Distinct columns have distinct labels |
| Text.TrimEmptyIffBlank | src/commands/standard_actions.rs:10-12 | Trimming leaves an empty string iff every character is white space |
| StandardActions.IsValidKey | src/commands/standard_actions.rs:10-12 | A name is a valid key iff it has a character that is not white space |
| StandardActions.AddItem | src/commands/standard_actions.rs:4-8 | Adding a non-blank name is creating an untagged task under it, so it stores a Todo record queued last and leaves other records and lists alone; adding a blank name changes nothing |
| StandardActions.MoveItem | src/commands/standard_actions.rs:22-26 | Moving a missing task is an error; moving an existing one is an update that changes only its column |
| StandardActions.MovedOnConsistentBoard | src/commands/standard_actions.rs:22-26 | On a board with consistent indices, moving an existing task succeeds, changes only its column, keeps the tag lists and keeps both indices consistent |
| StandardActions.StartItem | src/commands/standard_actions.rs:14-16 | Starting is moving to Doing. A missing task is an error; on a consistent board, starting an existing task puts its record in Doing |
| StandardActions.CompleteItem | src/commands/standard_actions.rs:18-20 | Completing is moving to Done. A missing task is an error; on a consistent board, completing an existing task puts its record in Done |
| StandardActions.DeleteItem | src/commands/standard_actions.rs:28-30 | Deleting is removing: a missing task changes nothing, and on a well-formed board exactly that record goes |
| StandardActions.RemoveEach | src/commands/standard_actions.rs:33-35 | Removing no names changes nothing; when every removal succeeds, exactly the records not named are left, unchanged |
| StandardActions.RemoveEachPreservesWellFormed | src/commands/standard_actions.rs:32-36 | On a well-formed board, removing a list of names one by one succeeds, stays well-formed, and leaves exactly the records not named, unchanged |
| StandardActions.ClearDone | src/commands/standard_actions.rs:32-36 | Clearing done tasks is removing, one by one, the names of the Done tasks all-tasks reports, on any board. On a well-formed board it succeeds, stays well-formed, and leaves exactly the records not in Done |
| StandardActions.Top | src/commands/standard_actions.rs:38-40 | The top command is top-priority: on a well-formed board it succeeds, stays well-formed and puts the task first in its column |
| NowCommand.Now | src/commands/now.rs:11-31 | With no task in progress nothing is written; with newlines the output, when not empty, ends in a newline; without newlines it is the names of the tasks in progress joined by commas |
| NowCommand.NowSilentWithoutDoing | src/commands/now.rs:17-32 | With no task in progress nothing is written, whatever the newline option |
| NowCommand.NowEmptyIff | src/commands/now.rs:17-32 | Nothing is written iff the names of the tasks in progress join to the empty string |
| NowCommand.NowCommaSeparated | src/commands/now.rs:11-31 | Without newlines, splitting the output at commas gives back the names of the tasks in progress, in order |
| NowCommand.NowOnePerLine | src/commands/now.rs:11-31 | With newlines, the output is empty or ends in a newline, and before it the names of the tasks in progress are one per line |
| NowCommand.NowSingleDoing | src/commands/now.rs:53-130 | One task in progress among others prints as its name and a newline, or its name alone without newlines |
| NowCommand.NowTwoDoing | src/commands/now.rs:133-211 | Two tasks in progress print one per line, or comma-separated without newlines |
| Text.SplitJoin | src/commands/now.rs:23 | Splitting a join at its separator gives back the parts when no part contains the separator |
| Text.JoinSplit | src/commands/now.rs:23 | Joining the pieces of a split with the same separator gives back the original string |
| TagCommand.Tag | src/commands/tag.rs:4-18 | Showing the tags of a missing task is an error; otherwise the output ends in a newline, and it is the placeholder line when the task has no tag list |
| TagCommand.TagLineSplits | src/commands/tag.rs:11-17 | The tag line, without its newline, splits at commas into the tags, each after the first preceded by one space |
| TagCommand.TagSingle | src/commands/tag.rs:30-44 | A task with one tag prints that tag and a newline |
| TagCommand.TagTwo | src/commands/tag.rs:63-80 | A task with two tags prints them separated by a comma and a space, then a newline |

## Left out

- Persistence is not modelled: the key-value backend, JSON encoding of records and
  lists, and the files on disk. The record store is a map with an abstract
  enumeration order (first-stored order; re-storing after a removal moves a key to the end).
  The real backend's enumeration order is not part of this model.
- Partial writes before a panic are not modelled. An operation that panics midway,
  such as `update` after indexing new tags and before un-indexing the old ones,
  returns an error and no board, where the source would have left the earlier
  writes in the store.
- Writer errors in `now` and `tag`: output is a returned string; a failing write
  is not modelled.
- The list, edit, view, backup, archive, web and reindex commands, option parsing,
  the program entry point and the command dispatcher are not part of this model.
- `tag` command: its unused tag argument is dropped.
- Concurrency is not modelled: every operation runs alone on one board value.
- Repairing a stale tag index is not modelled: the source has no operation for it.
- `ReindexColumns`: the record count is an unbounded natural; the source's `usize`
  cannot overflow for any store that fits in memory.
- `NowCommand.NowCommaSeparated` assumes no task name contains a comma. A name
  containing one makes the output ambiguous, and the source does not guard against it.
- `NowCommand.NowOnePerLine` assumes no task name contains a newline. A name
  containing one makes the output ambiguous, and the source does not guard against it.
- `TagCommand.TagLineSplits` assumes a non-empty tag list whose tags contain no comma.
- `StandardActions.StartItem` and `StandardActions.CompleteItem` state success only on a
  board whose indices are consistent. On other boards they state only that the result
  is `MoveItem`'s for Doing and Done respectively.

=== FILE: board.dfy ===
/** The board coordinator (`Board` and its `BoardAccess` implementation): a task record
    store plus two derived indices, the column lists and the tag lists, all kept in
    step by short read-modify-write sequences. */
module Boards {
  import opened Results
  import opened Seqs
  import opened Stores
  import opened Tasks

  /** The conditions under which the source panics. */
  datatype Fault =
    | NotInColumn(key: string, columnLabel: string)   // `expect` in remove and top_priority
    | NotInTagList(key: string, tag: string)    // `expect` in rm_tag_index
    | NoSuchTask(key: string)                   // `unwrap` of a missing task in a command

  /** The three stores: task records, column label -> ordered keys, tag -> keys. */
  datatype Board = Board(
    records: Store<Task>,
    columns: map<string, seq<string>>,
    tags: map<string, seq<string>>)

  /** `get_column_list`: the stored list, or empty when the label has none. */
  function ColumnList(b: Board, lbl: string): (r: seq<string>)
    ensures lbl !in b.columns ==> r == []
    ensures lbl in b.columns ==> r == b.columns[lbl]
  {
    if lbl in b.columns then b.columns[lbl] else []
  }

  /** A tag's stored list, or empty when the tag has none (`unwrap_or(vec!())`). */
  function TagList(b: Board, tag: string): seq<string> {
    if tag in b.tags then b.tags[tag] else []
  }

  /** `add_to_column`: append `key` to the end of the column's list. */
  function AddToColumn(b: Board, key: string, column: Column): (r: Board)
    ensures r.records == b.records && r.tags == b.tags
    ensures ColumnList(r, Label(column)) == ColumnList(b, Label(column)) + [key]
    ensures forall l :: l != Label(column) ==> ColumnList(r, l) == ColumnList(b, l)
  {
    var lbl := Label(column);
    b.(columns := b.columns[lbl := ColumnList(b, lbl) + [key]])
  }

  /** `get_new_task`: a fresh Todo task, tagged with the given tag if any. */
  function NewTask(key: string, tag: Option<string>): (r: Task)
    ensures r.name == key && r.column == Todo && r.description == None
    ensures r.tags.Some? <==> tag.Some?
    ensures TagsOf(r) == if tag.Some? then [tag.value] else []
  {
    var tags := match tag
      case None => None
      case Some(t) => Some([t]);
    Task(key, Todo, None, tags)
  }

  /** `get_tag_diff`: the tags to index (`.0`) and to un-index (`.1`) when a task's
      tags change from `oldTags` to `newTags`; an absent new list counts as empty. */
  function TagDiff(oldTags: Option<seq<string>>, newTags: Option<seq<string>>)
    : (r: (seq<string>, seq<string>))
    ensures oldTags.None? ==> r.0 == newTags.GetOr([]) && r.1 == []
    ensures oldTags.Some? ==>
              forall t :: (t in r.0 <==> t in newTags.GetOr([]) && t !in oldTags.value)
                       && (t in r.1 <==> t in oldTags.value && t !in newTags.GetOr([]))
    ensures oldTags.Some? ==>
              r.0 == Without(newTags.GetOr([]), oldTags.value) && r.1 == Without(oldTags.value, newTags.GetOr([]))
    ensures NoDups(newTags.GetOr([])) ==> NoDups(r.0)
    ensures NoDups(oldTags.GetOr([])) ==> NoDups(r.1)
  {
    var added := newTags.GetOr([]);
    match oldTags
    case None => (added, [])
    case Some(o) => (Without(added, o), Without(o, added))
  }

  /** `get_tag_diff` as the source writes it: two passes that push, in list order,
      each old tag missing from the new list and each new tag missing from the old
      one. The result is `TagDiff`, so both lists keep the order and the repeats of
      the lists they are drawn from. */
  method TagDiffByPushing(oldTags: Option<seq<string>>, newTags: Option<seq<string>>)
    returns (added: seq<string>, removed: seq<string>)
    ensures (added, removed) == TagDiff(oldTags, newTags)
  {
    var newList := newTags.GetOr([]);
    added, removed := [], [];
    if oldTags.None? {
      added := newList;
      return;
    }
    var oldList := oldTags.value;
    for i := 0 to |oldList|
      invariant removed == Without(oldList[..i], newList)
    {
      assert oldList[..i + 1] == oldList[..i] + [oldList[i]];
      WithoutSnoc(oldList[..i], oldList[i], newList);
      if oldList[i] !in newList {
        removed := removed + [oldList[i]];
      }
    }
    assert oldList[..|oldList|] == oldList;
    for i := 0 to |newList|
      invariant added == Without(newList[..i], oldList)
    {
      assert newList[..i + 1] == newList[..i] + [newList[i]];
      WithoutSnoc(newList[..i], newList[i], oldList);
      if newList[i] !in oldList {
        added := added + [newList[i]];
      }
    }
    assert newList[..|newList|] == newList;
  }

  /** `index_tags`: for each tag in turn, push `key` onto its list and de-duplicate
      neighbours. Indexing under the same tag twice is the same as once. */
  function IndexTags(b: Board, ts: seq<string>, key: string): (r: Board)
    ensures r.records == b.records && r.columns == b.columns
    ensures forall t :: TagList(r, t) == if t in ts then Dedup(TagList(b, t) + [key]) else TagList(b, t)
    decreases |ts|
  {
    if |ts| == 0 then b
    else
      var t := ts[0];
      var b' := b.(tags := b.tags[t := Dedup(TagList(b, t) + [key])]);
      var r := IndexTags(b', ts[1..], key);
      IndexTagsStep(b, b', ts, key, r);
      r
  }

  /** The recursive step of `IndexTags`: indexing under the first tag and then
      under the rest is indexing under all of them. */
  lemma IndexTagsStep(b: Board, b': Board, ts: seq<string>, key: string, r: Board)
    requires |ts| > 0
    requires b' == b.(tags := b.tags[ts[0] := Dedup(TagList(b, ts[0]) + [key])])
    requires forall t :: TagList(r, t) == if t in ts[1..] then Dedup(TagList(b', t) + [key]) else TagList(b', t)
    ensures forall t :: TagList(r, t) == if t in ts then Dedup(TagList(b, t) + [key]) else TagList(b, t)
  {
    forall t
      ensures TagList(r, t) == if t in ts then Dedup(TagList(b, t) + [key]) else TagList(b, t)
    {
      assert t in ts <==> t == ts[0] || t in ts[1..];
      if t == ts[0] {
        DedupPushTwice(TagList(b, t), key);
      } else {
        assert TagList(b', t) == TagList(b, t);
      }
    }
  }

  /** `rm_tag_index`: for each tag in turn, remove the first occurrence of `key` from
      its list; panics when the key is not there (or the tag has no list). */
  function RmTagIndex(b: Board, ts: seq<string>, key: string): (r: Result<Board, Fault>)
    ensures r.Ok? ==> r.value.records == b.records && r.value.columns == b.columns
    ensures r.Ok? ==> forall t :: t !in ts ==> TagList(r.value, t) == TagList(b, t)
    ensures |ts| > 0 && key !in TagList(b, ts[0]) ==> r == Err(NotInTagList(key, ts[0]))
    decreases |ts|
  {
    if |ts| == 0 then Ok(b)
    else
      var t := ts[0];
      var list := TagList(b, t);
      match IndexOf(list, key)
      case None => Err(NotInTagList(key, t))
      case Some(i) =>
        assert forall u :: u !in ts ==> u != t && u !in ts[1..];
        RmTagIndex(b.(tags := b.tags[t := RemoveAt(list, i)]), ts[1..], key)
  }

  /** Whether the tag filter of `get_column` lets `key` through: always without a
      tag; with a tag, only when that tag has a stored list containing the key. */
  predicate TagAdmits(b: Board, tag: Option<string>, key: string) {
    match tag
    case None => true
    case Some(t) => t in b.tags && key in b.tags[t]
  }

  /** The keys `get_column` keeps: those the tag filter admits and that still have
      a record, in the order of `keys`. */
  function SelectKeys(b: Board, keys: seq<string>, tag: Option<string>): (r: seq<string>)
    ensures forall k :: k in r <==> k in keys && TagAdmits(b, tag, k) && k in b.records.entries
    ensures NoDups(keys) ==> NoDups(r)
    ensures |r| <= |keys|
  {
    if |keys| == 0 then []
    else
      var rest := SelectKeys(b, keys[1..], tag);
      var k := keys[0];
      assert forall x :: x in keys <==> x == k || x in keys[1..];
      if TagAdmits(b, tag, k) && k in b.records.entries then [k] + rest else rest
  }

  /** `get_all_tasks`: every record, in store enumeration order. */
  function GetAllTasks(b: Board): (r: seq<Task>)
    ensures |r| <= |b.records.order|
    ensures b.records.Valid() ==>
              |r| == |b.records.order| &&
              forall i :: 0 <= i < |r| ==> r[i] == b.records.entries[b.records.order[i]]
  {
    b.records.GetAll()
  }

  /** `get_column`: the records for the keys of the column list, in list order,
      filtered by tag when one is given, skipping keys that have no record. */
  function GetColumn(b: Board, lbl: string, tag: Option<string>): (r: seq<Task>)
    ensures var ks := SelectKeys(b, ColumnList(b, lbl), tag);
              |r| == |ks| && forall i :: 0 <= i < |r| ==> r[i] == b.records.entries[ks[i]]
  {
    var ks := SelectKeys(b, ColumnList(b, lbl), tag);
    seq(|ks|, i requires 0 <= i < |ks| => b.records.entries[ks[i]])
  }

  /** `create_task`: store a fresh Todo record, append the key to the end of the
      todo list and, when a tag is given, index the key under it. */
  function CreateTask(b: Board, key: string, tag: Option<string>): (r: Board)
    ensures r.records.Get(key) == Some(Task(key, Todo, None, if tag.Some? then Some([tag.value]) else None))
    ensures forall k :: k != key ==> r.records.Get(k) == b.records.Get(k)
    ensures ColumnList(r, Label(Todo)) == ColumnList(b, Label(Todo)) + [key]
    ensures forall l :: l != Label(Todo) ==> ColumnList(r, l) == ColumnList(b, l)
    ensures tag.None? ==> r.tags == b.tags
    ensures tag.Some? ==> TagList(r, tag.value) == Dedup(TagList(b, tag.value) + [key])
    ensures tag.Some? ==> forall t :: t != tag.value ==> TagList(r, t) == TagList(b, t)
  {
    var stored := b.(records := b.records.Set(key, NewTask(key, tag)));
    var queued := AddToColumn(stored, key, Todo);
    match tag
    case None => queued
    case Some(t) => IndexTags(queued, [t], key)
  }

  /** `get`: the record under `key`; absence is not an error. */
  function Get(b: Board, key: string): (r: Option<Task>)
    ensures r.Some? <==> key in b.records.entries
    ensures r.Some? ==> r.value == b.records.entries[key]
  {
    b.records.Get(key)
  }

  /** The tag half of `update`: index the added tags, then un-index the removed ones. */
  function UpdateTags(b: Board, key: string, oldTags: Option<seq<string>>, newTags: Option<seq<string>>)
    : (r: Result<Board, Fault>)
    ensures r.Ok? ==> r.value.records == b.records && r.value.columns == b.columns
  {
    var diff := TagDiff(oldTags, newTags);
    RmTagIndex(IndexTags(b, diff.0, key), diff.1, key)
  }

  /** `update`: nothing when `key` has no record; otherwise bring the tag index in
      line with the new tags, move the key to the end of the new column when the
      column changes (via `remove`), and store the new record. */
  function Update(b: Board, key: string, task: Task): (r: Result<Board, Fault>)
    ensures key !in b.records.entries ==> r == Ok(b)
    ensures key in b.records.entries ==>
              var prev := b.records.entries[key];
              var oldLabel := Label(prev.column);
              var tagged := UpdateTags(b, key, prev.tags, task.tags);
              && (r.Err? <==> tagged.Err? || (prev.column != task.column && key !in ColumnList(b, oldLabel)))
              && (r.Ok? ==> r.value.records.entries == b.records.entries[key := task])
              && (r.Ok? ==> r.value.tags == tagged.value.tags)
              && (r.Ok? && prev.column == task.column ==>
                    r.value.columns == b.columns && r.value.records.order == b.records.order)
              && (r.Ok? && prev.column != task.column ==>
                    && ColumnList(r.value, oldLabel) == RemoveFirst(ColumnList(b, oldLabel), key)
                    && ColumnList(r.value, Label(task.column)) == ColumnList(b, Label(task.column)) + [key]
                    && (forall l :: l != oldLabel && l != Label(task.column) ==>
                          ColumnList(r.value, l) == ColumnList(b, l)))
  {
    match b.records.Get(key)
    case None => Ok(b)
    case Some(prev) =>
      var tagged :- UpdateTags(b, key, prev.tags, task.tags);
      if prev.column == task.column then
        Ok(tagged.(records := tagged.records.Set(key, task)))
      else
        var removed :- Remove(tagged, key);
        var moved := AddToColumn(removed, key, task.column);
        var result := moved.(records := moved.records.Set(key, task));
        RmThenSet(tagged.records, key, task);
        assert tagged.records.entries[key] == prev;
        assert forall l :: l != Label(prev.column) ==> ColumnList(removed, l) == ColumnList(b, l);
        assert forall l :: ColumnList(result, l) == ColumnList(moved, l);
        Ok(result)
  }

  /** `remove`: nothing when `key` has no record; otherwise delete the first
      occurrence of the key from its column's list, panicking if it is not there,
      and delete the record. The tag lists are left alone. */
  function Remove(b: Board, key: string): (r: Result<Board, Fault>)
    ensures key !in b.records.entries ==> r == Ok(b)
    ensures key in b.records.entries ==>
              var lbl := Label(b.records.entries[key].column);
              && (r.Err? <==> key !in ColumnList(b, lbl))
              && (r.Err? ==> r.error == NotInColumn(key, lbl))
              && (r.Ok? ==>
                    && r.value.records == b.records.Rm(key)
                    && ColumnList(r.value, lbl) == RemoveFirst(ColumnList(b, lbl), key)
                    && (forall l :: l != lbl ==> ColumnList(r.value, l) == ColumnList(b, l))
                    && r.value.tags == b.tags)
  {
    match b.records.Get(key)
    case None => Ok(b)
    case Some(task) =>
      var lbl := Label(task.column);
      var col := ColumnList(b, lbl);
      match IndexOf(col, key)
      case None => Err(NotInColumn(key, lbl))
      case Some(i) => Ok(Board(b.records.Rm(key), b.columns[lbl := RemoveAt(col, i)], b.tags))
  }

  /** Names of the tasks in column `c`, in the order of `tasks`. */
  function NamesIn(tasks: seq<Task>, c: Column): seq<string> {
    if |tasks| == 0 then []
    else
      var last := tasks[|tasks| - 1];
      NamesIn(tasks[..|tasks| - 1], c) + (if last.column == c then [last.name] else [])
  }

  /** The three labels the column store is keyed by. */
  const Labels: set<string> := {"todo", "doing", "done"}

  /** The loop of `reindex_columns`: `add_to_column` for every task in turn. */
  function AppendAll(b: Board, tasks: seq<Task>): (r: Board)
    ensures r.records == b.records && r.tags == b.tags
    ensures ColumnList(r, "todo") == ColumnList(b, "todo") + NamesIn(tasks, Todo)
    ensures ColumnList(r, "doing") == ColumnList(b, "doing") + NamesIn(tasks, Doing)
    ensures ColumnList(r, "done") == ColumnList(b, "done") + NamesIn(tasks, Done)
    ensures b.columns.Keys <= r.columns.Keys <= b.columns.Keys + Labels
    ensures forall l :: l in b.columns && l !in Labels ==> r.columns[l] == b.columns[l]
  {
    if |tasks| == 0 then b
    else
      var last := tasks[|tasks| - 1];
      var prefix := AppendAll(b, tasks[..|tasks| - 1]);
      AppendAllStep(b, prefix, tasks, Todo);
      AppendAllStep(b, prefix, tasks, Doing);
      AppendAllStep(b, prefix, tasks, Done);
      AddToColumn(prefix, last.name, last.column)
  }

  /** One step of the loop above, seen from column `c`: adding the last task
      extends `c`'s list by that task's name exactly when the task is in `c`. */
  lemma AppendAllStep(b: Board, prefix: Board, tasks: seq<Task>, c: Column)
    requires |tasks| > 0
    requires ColumnList(prefix, Label(c)) == ColumnList(b, Label(c)) + NamesIn(tasks[..|tasks| - 1], c)
    ensures var last := tasks[|tasks| - 1];
            ColumnList(AddToColumn(prefix, last.name, last.column), Label(c))
            == ColumnList(b, Label(c)) + NamesIn(tasks, c)
  {
    var last := tasks[|tasks| - 1];
    var ext := if last.column == c then [last.name] else [];
    var start := ColumnList(b, Label(c));
    var names := NamesIn(tasks[..|tasks| - 1], c);
    AddedToOneColumn(prefix, last.name, last.column, c);
    NamesInLast(tasks, c);
    ConcatAssoc(start, names, ext);
  }

  /** Adding to one column extends column `c`'s list only when `c` is that column. */
  lemma AddedToOneColumn(b: Board, key: string, column: Column, c: Column)
    ensures ColumnList(AddToColumn(b, key, column), Label(c))
            == ColumnList(b, Label(c)) + (if column == c then [key] else [])
  {
    LabelInjective(column, c);
  }

  /** The names in column `c` grow by the last task's name exactly when it is in `c`. */
  lemma NamesInLast(tasks: seq<Task>, c: Column)
    requires |tasks| > 0
    ensures NamesIn(tasks, c) == NamesIn(tasks[..|tasks| - 1], c)
            + (if tasks[|tasks| - 1].column == c then [tasks[|tasks| - 1].name] else [])
  {
  }

  /** `reindex_columns`: empty the three column lists, refill them from the records
      in enumeration order, and report how many records there were. */
  function ReindexColumns(b: Board): (r: (Board, nat))
    ensures r.0.records == b.records && r.0.tags == b.tags
    ensures r.1 == |GetAllTasks(b)|
    ensures r.0.columns == b.columns["todo" := NamesIn(GetAllTasks(b), Todo)]
                                    ["doing" := NamesIn(GetAllTasks(b), Doing)]
                                    ["done" := NamesIn(GetAllTasks(b), Done)]
  {
    var cleared := b.(columns := b.columns["todo" := []]["doing" := []]["done" := []]);
    var tasks := GetAllTasks(b);
    var refilled := AppendAll(cleared, tasks);
    RelabelledColumns(b.columns, refilled.columns,
                      NamesIn(tasks, Todo), NamesIn(tasks, Doing), NamesIn(tasks, Done));
    (refilled, |tasks|)
  }

  /** A column store that agrees with `m` off the three labels and holds the given
      lists under them is `m` with those three lists written in. */
  lemma RelabelledColumns(m: map<string, seq<string>>, r: map<string, seq<string>>,
                          todo: seq<string>, doing: seq<string>, done: seq<string>)
    requires r.Keys == m.Keys + Labels
    requires "todo" in r && r["todo"] == todo
    requires "doing" in r && r["doing"] == doing
    requires "done" in r && r["done"] == done
    requires forall l :: l in m && l !in Labels ==> r[l] == m[l]
    ensures r == m["todo" := todo]["doing" := doing]["done" := done]
  {
  }

  /** `top_priority`: nothing when `key` has no record; otherwise move the key from
      its place in its column's list to the front (as the record's name), panicking
      if the key is not in the list. */
  function TopPriority(b: Board, key: string): (r: Result<Board, Fault>)
    ensures key !in b.records.entries ==> r == Ok(b)
    ensures key in b.records.entries ==>
              var task := b.records.entries[key];
              var lbl := Label(task.column);
              && (r.Err? <==> key !in ColumnList(b, lbl))
              && (r.Err? ==> r.error == NotInColumn(key, lbl))
              && (r.Ok? ==>
                    && r.value.records == b.records && r.value.tags == b.tags
                    && ColumnList(r.value, lbl) == [task.name] + RemoveFirst(ColumnList(b, lbl), key)
                    && |ColumnList(r.value, lbl)| == |ColumnList(b, lbl)|
                    && (forall l :: l != lbl ==> ColumnList(r.value, l) == ColumnList(b, l)))
  {
    match b.records.Get(key)
    case None => Ok(b)
    case Some(task) =>
      var lbl := Label(task.column);
      var col := ColumnList(b, lbl);
      match IndexOf(col, key)
      case None => Err(NotInColumn(key, lbl))
      case Some(i) => Ok(b.(columns := b.columns[lbl := [task.name] + RemoveAt(col, i)]))
  }
}

=== FILE: board_properties.dfy ===
/** Properties of single board operations and of repeating them, which hold on any
    board whatever state its indices are in. */
module BoardProperties {
  import opened Results
  import opened Seqs
  import opened Tasks
  import opened Boards

  /** Tasks created one after the other queue up at the end of the todo list in
      creation order. */
  lemma CreateTaskQueuesInOrder(b: Board, k1: string, k2: string)
    ensures ColumnList(CreateTask(CreateTask(b, k1, None), k2, None), Label(Todo))
            == ColumnList(b, Label(Todo)) + [k1, k2]
  {
  }

  /** Indexing a key under a tag whose list has no equal neighbours leaves the list
      alone when its last key is already that key, and otherwise appends the key. */
  lemma IndexTagsAppendsOnce(b: Board, ts: seq<string>, key: string, t: string)
    requires t in ts
    requires NoAdjacentDups(TagList(b, t))
    ensures var list := TagList(b, t);
            TagList(IndexTags(b, ts, key), t)
            == if |list| > 0 && list[|list| - 1] == key then list else list + [key]
  {
    DedupPush(TagList(b, t), key);
  }

  /** Un-indexing a key from one tag removes its first occurrence, and fails exactly
      when the key is not in the tag's list (in particular when there is no list). */
  lemma RmTagIndexSingle(b: Board, t: string, key: string)
    ensures RmTagIndex(b, [t], key).Err? <==> key !in TagList(b, t)
    ensures t !in b.tags ==> RmTagIndex(b, [t], key) == Err(NotInTagList(key, t))
    ensures RmTagIndex(b, [t], key).Ok? ==>
              TagList(RmTagIndex(b, [t], key).value, t) == RemoveFirst(TagList(b, t), key)
  {
  }

  /** Un-indexing a key from distinct tags succeeds exactly when every one of those
      tags lists the key; each listed tag then loses the key's first occurrence and
      every other tag is untouched. */
  lemma {:induction false} RmTagIndexDistinct(b: Board, ts: seq<string>, key: string)
    requires NoDups(ts)
    ensures RmTagIndex(b, ts, key).Ok? <==> forall t :: t in ts ==> key in TagList(b, t)
    ensures RmTagIndex(b, ts, key).Ok? ==>
              forall t :: TagList(RmTagIndex(b, ts, key).value, t)
                          == if t in ts then RemoveFirst(TagList(b, t), key) else TagList(b, t)
    decreases |ts|
  {
    if |ts| > 0 {
      var t := ts[0];
      var list := TagList(b, t);
      if key in list {
        var b' := b.(tags := b.tags[t := RemoveAt(list, IndexOf(list, key).value)]);
        assert NoDups(ts[1..]);
        assert forall u :: u in ts <==> u == t || u in ts[1..];
        assert t !in ts[1..];
        RmTagIndexDistinct(b', ts[1..], key);
      }
    }
  }

  /** The key filter of `get_column` keeps the relative order of the keys it keeps. */
  lemma {:induction false} SelectKeysConcat(b: Board, xs: seq<string>, ys: seq<string>, tag: Option<string>)
    ensures SelectKeys(b, xs + ys, tag) == SelectKeys(b, xs, tag) + SelectKeys(b, ys, tag)
  {
    if |xs| == 0 {
      assert xs + ys == ys;
    } else {
      assert (xs + ys)[1..] == xs[1..] + ys;
      SelectKeysConcat(b, xs[1..], ys, tag);
    }
  }

  /** Without a tag, `get_column` returns the record of every key in the column list,
      in list order, when every listed key has a record. */
  lemma {:induction false} SelectKeysAll(b: Board, keys: seq<string>)
    requires forall k :: k in keys ==> k in b.records.entries
    ensures SelectKeys(b, keys, None) == keys
  {
    if |keys| > 0 {
      assert forall k :: k in keys[1..] ==> k in keys;
      SelectKeysAll(b, keys[1..]);
    }
  }

  /** Filtering by a tag that has no stored list yields nothing. */
  lemma GetColumnUnknownTag(b: Board, lbl: string, t: string)
    requires t !in b.tags
    ensures GetColumn(b, lbl, Some(t)) == []
  {
    SelectKeysUnknownTag(b, ColumnList(b, lbl), t);
  }

  lemma {:induction false} SelectKeysUnknownTag(b: Board, keys: seq<string>, t: string)
    requires t !in b.tags
    ensures SelectKeys(b, keys, Some(t)) == []
  {
    if |keys| > 0 {
      SelectKeysUnknownTag(b, keys[1..], t);
    }
  }

  /** Updating a task with a value it already has changes nothing; so updating
      twice with the same value is the same as updating once. */
  lemma UpdateIdempotent(b: Board, key: string, task: Task)
    requires Update(b, key, task).Ok?
    ensures Update(Update(b, key, task).value, key, task) == Update(b, key, task)
  {
    if key in b.records.entries {
      var b1 := Update(b, key, task).value;
      assert b1.records.entries[key] == task;
      UpdateToCurrent(b1, key, task);
    }
  }

  /** Updating a task to the value it already holds leaves the board as it is. */
  lemma UpdateToCurrent(b: Board, key: string, task: Task)
    requires key in b.records.entries && b.records.entries[key] == task
    ensures Update(b, key, task) == Ok(b)
  {
    var same := TagsOf(task);
    WithoutCovered(same, same);
    assert UpdateTags(b, key, task.tags, task.tags) == Ok(b);
    assert b.records.Set(key, task).entries == b.records.entries;
  }

  /** Rebuilding the column lists twice gives the same board as rebuilding once. */
  lemma ReindexIdempotent(b: Board)
    ensures ReindexColumns(ReindexColumns(b).0) == ReindexColumns(b)
  {
    var once := ReindexColumns(b);
    var twice := ReindexColumns(once.0);
    var ts := GetAllTasks(b);
    assert GetAllTasks(once.0) == ts;
    var m := b.columns["todo" := NamesIn(ts, Todo)]["doing" := NamesIn(ts, Doing)]["done" := NamesIn(ts, Done)];
    assert once.0.columns == m;
    assert twice.0.columns == m["todo" := NamesIn(ts, Todo)]["doing" := NamesIn(ts, Doing)]["done" := NamesIn(ts, Done)];
    StoreSame(m, "todo", NamesIn(ts, Todo));
    StoreSame(m, "doing", NamesIn(ts, Doing));
    StoreSame(m, "done", NamesIn(ts, Done));
  }

  /** Storing the value a map already holds leaves the map unchanged. */
  lemma StoreSame<K, V>(m: map<K, V>, k: K, v: V)
    requires k in m && m[k] == v
    ensures m[k := v] == m
  {
  }

  /** Selecting the names of one column is an order-preserving filter: it
      distributes over concatenation of task lists. */
  lemma {:induction false} NamesInConcat(xs: seq<Task>, ys: seq<Task>, c: Column)
    ensures NamesIn(xs + ys, c) == NamesIn(xs, c) + NamesIn(ys, c)
    decreases |ys|
  {
    if |ys| == 0 {
      assert xs + ys == xs;
    } else {
      var init := ys[..|ys| - 1];
      assert (xs + ys)[..|xs + ys| - 1] == xs + init;
      NamesInConcat(xs, init, c);
    }
  }

  /** A task list with no task in column `c` contributes no names to it. */
  lemma {:induction false} NamesInAbsent(tasks: seq<Task>, c: Column)
    requires forall i :: 0 <= i < |tasks| ==> tasks[i].column != c
    ensures NamesIn(tasks, c) == []
    decreases |tasks|
  {
    if |tasks| > 0 {
      NamesInAbsent(tasks[..|tasks| - 1], c);
    }
  }
}

=== FILE: invariants.dfy ===
/** The consistency the board's indices are meant to keep with the record store:
    every record's key sits exactly once in the list of the column it is in, and
    nowhere else; and (separately) a key is listed under a tag exactly when its
    record carries that tag. */
module BoardInvariants {
  import opened Results
  import opened Seqs
  import opened Stores
  import opened Tasks
  import opened Boards
  import opened BoardProperties

  /** Every record is stored under its own name. */
  ghost predicate KeyedByName(b: Board) {
    forall k :: k in b.records.entries ==> b.records.entries[k].name == k
  }

  /** The list of column `c` holds each key whose record is in column `c`, once,
      and no other key. */
  ghost predicate ColumnIndexed(b: Board, c: Column) {
    && NoDups(ColumnList(b, Label(c)))
    && forall k :: k in ColumnList(b, Label(c)) <==>
                   k in b.records.entries && b.records.entries[k].column == c
  }

  /** The column index agrees with the record store. */
  ghost predicate WellFormed(b: Board) {
    && b.records.Valid()
    && KeyedByName(b)
    && ColumnIndexed(b, Todo)
    && ColumnIndexed(b, Doing)
    && ColumnIndexed(b, Done)
  }

  /** The tag index agrees with the record store: tag lists and task tag lists are
      duplicate-free, and `k` is listed under `t` exactly when record `k` has tag `t`. */
  ghost predicate TagsIndexed(b: Board) {
    && (forall k :: k in b.records.entries ==> NoDups(TagsOf(b.records.entries[k])))
    && (forall t :: NoDups(TagList(b, t)))
    && (forall t, k :: k in TagList(b, t) <==> k in b.records.entries && t in TagsOf(b.records.entries[k]))
  }

  /** The names of a list of tasks, in order. */
  function Names(tasks: seq<Task>): (r: seq<string>)
    ensures |r| == |tasks| && forall i :: 0 <= i < |tasks| ==> r[i] == tasks[i].name
  {
    seq(|tasks|, i requires 0 <= i < |tasks| => tasks[i].name)
  }

  /** Storing a record for a new key and appending the key to its column's list
      keeps the board well formed. */
  lemma InsertPreservesWellFormed(b: Board, key: string, task: Task)
    requires WellFormed(b) && key !in b.records.entries && task.name == key
    ensures WellFormed(AddToColumn(b, key, task.column).(records := b.records.Set(key, task)))
  {
    var r := AddToColumn(b, key, task.column).(records := b.records.Set(key, task));
    ColumnStillIndexed(b, r, key, task, Todo);
    ColumnStillIndexed(b, r, key, task, Doing);
    ColumnStillIndexed(b, r, key, task, Done);
  }

  lemma ColumnStillIndexed(b: Board, r: Board, key: string, task: Task, c: Column)
    requires WellFormed(b) && key !in b.records.entries
    requires r == AddToColumn(b, key, task.column).(records := b.records.Set(key, task))
    ensures ColumnIndexed(r, c)
  {
    LabelInjective(c, task.column);
    var before := ColumnList(b, Label(c));
    assert key !in before;
    assert r.records.entries == b.records.entries[key := task];
    if c == task.column {
      assert ColumnList(r, Label(c)) == before + [key];
      AppendFresh(before, key);
    } else {
      assert ColumnList(r, Label(c)) == before;
    }
  }

  /** `create_task` on a key that has no record keeps the board well formed. */
  lemma CreateTaskPreservesWellFormed(b: Board, key: string, tag: Option<string>)
    requires WellFormed(b) && key !in b.records.entries
    ensures WellFormed(CreateTask(b, key, tag))
  {
    var task := NewTask(key, tag);
    InsertPreservesWellFormed(b, key, task);
    var expected := AddToColumn(b, key, Todo).(records := b.records.Set(key, task));
    assert CreateTask(b, key, tag).records == expected.records;
    assert CreateTask(b, key, tag).columns == expected.columns;
  }

  /** `create_task` on a key that already has a record breaks the column index:
      either the key is listed twice in todo, or it stays listed in its old column. */
  lemma CreateTaskOnExistingKeyBreaksIndex(b: Board, key: string, tag: Option<string>)
    requires WellFormed(b) && key in b.records.entries
    ensures !WellFormed(CreateTask(b, key, tag))
  {
    var c := b.records.entries[key].column;
    var r := CreateTask(b, key, tag);
    var todo := ColumnList(b, Label(Todo));
    if c == Todo {
      assert key in todo;
      assert ColumnList(r, Label(Todo)) == todo + [key];
      AppendPresent(todo, key);
    } else {
      LabelInjective(c, Todo);
      assert ColumnList(r, Label(c)) == ColumnList(b, Label(c));
      assert key in ColumnList(b, Label(c));
      assert r.records.Get(key).value.column == Todo;
    }
  }

  /** On a well-formed board `remove` never panics, deletes exactly that record and
      keeps the board well formed. */
  lemma RemovePreservesWellFormed(b: Board, key: string)
    requires WellFormed(b)
    ensures Remove(b, key).Ok?
    ensures Remove(b, key).value.records.entries == b.records.entries - {key}
    ensures WellFormed(Remove(b, key).value)
  {
    if key in b.records.entries {
      var c := b.records.entries[key].column;
      var list := ColumnList(b, Label(c));
      assert key in list;
      RemoveAtNoDups(list, IndexOf(list, key).value);
      var r := Remove(b, key).value;
      RemoveKeepsColumn(b, r, key, Todo);
      RemoveKeepsColumn(b, r, key, Doing);
      RemoveKeepsColumn(b, r, key, Done);
    }
  }

  lemma RemoveKeepsColumn(b: Board, r: Board, key: string, d: Column)
    requires WellFormed(b) && key in b.records.entries
    requires Remove(b, key) == Ok(r)
    ensures ColumnIndexed(r, d)
  {
    var c := b.records.entries[key].column;
    var list := ColumnList(b, Label(c));
    var i := IndexOf(list, key).value;
    RemoveAtNoDups(list, i);
    LabelInjective(c, d);
    assert r.records.entries == b.records.entries - {key};
    if c == d {
      assert ColumnList(r, Label(d)) == RemoveAt(list, i);
    } else {
      assert ColumnList(r, Label(d)) == ColumnList(b, Label(d));
      assert key !in ColumnList(b, Label(d));
    }
  }

  /** On a well-formed board `top_priority` never panics, puts the key at the head
      of its column and keeps the board well formed. */
  lemma TopPriorityPreservesWellFormed(b: Board, key: string)
    requires WellFormed(b)
    ensures TopPriority(b, key).Ok?
    ensures WellFormed(TopPriority(b, key).value)
    ensures key in b.records.entries ==>
              var list := ColumnList(TopPriority(b, key).value, Label(b.records.entries[key].column));
              |list| > 0 && list[0] == key
  {
    if key in b.records.entries {
      var c := b.records.entries[key].column;
      var list := ColumnList(b, Label(c));
      assert key in list;
      RemoveAtNoDups(list, IndexOf(list, key).value);
      var r := TopPriority(b, key).value;
      var list' := ColumnList(r, Label(c));
      assert list' == [key] + RemoveFirst(list, key);
      assert NoDups(list');
      forall d: Column
        ensures ColumnIndexed(r, d)
      {
        LabelInjective(c, d);
      }
    }
  }

  /** Prioritising two tasks of the same column one after the other leaves the
      later one first and the earlier one second. Only the two tasks involved
      need to be consistent: each is stored under its own name and listed in
      its column, whatever the rest of the board looks like. */
  lemma TopPriorityStack(b: Board, k1: string, k2: string)
    requires k1 in b.records.entries && b.records.entries[k1].name == k1
    requires k2 in b.records.entries && b.records.entries[k2].name == k2
    requires k1 != k2
    requires b.records.entries[k1].column == b.records.entries[k2].column
    requires var list := ColumnList(b, Label(b.records.entries[k1].column));
             k1 in list && k2 in list
    ensures TopPriority(b, k1).Ok?
    ensures var b1 := TopPriority(b, k1).value;
            TopPriority(b1, k2).Ok? &&
            var list := ColumnList(TopPriority(b1, k2).value, Label(b.records.entries[k1].column));
            |list| >= 2 && list[0] == k2 && list[1] == k1
  {
    var lbl := Label(b.records.entries[k1].column);
    var list := ColumnList(b, lbl);
    var b1 := TopPriority(b, k1).value;
    var rest := RemoveFirst(list, k1);
    assert ColumnList(b1, lbl) == [k1] + rest;
    assert k2 in multiset(rest) by {
      assert k2 in multiset(list);
    }
    PrioritisedBehindHead(b1, k1, k2, lbl);
  }

  /** Prioritising a listed task of a column whose head is another task puts it in
      front of that head. */
  lemma PrioritisedBehindHead(b: Board, head: string, key: string, lbl: string)
    requires key in b.records.entries && b.records.entries[key].name == key
    requires Label(b.records.entries[key].column) == lbl
    requires key in ColumnList(b, lbl) && ColumnList(b, lbl)[0] == head && head != key
    ensures TopPriority(b, key).Ok?
    ensures var list := ColumnList(TopPriority(b, key).value, lbl);
            |list| >= 2 && list[0] == key && list[1] == head
  {
    var mid := ColumnList(b, lbl);
    assert ColumnList(TopPriority(b, key).value, lbl) == [key] + RemoveFirst(mid, key);
    RemoveFirstKeepsHead(mid, key);
  }

  /** `update` that keeps the column: the lists are untouched and the record is
      replaced in place. */
  lemma UpdateInPlacePreservesWellFormed(b: Board, key: string, task: Task)
    requires WellFormed(b) && task.name == key && key in b.records.entries
    requires b.records.entries[key].column == task.column
    requires UpdateTags(b, key, b.records.entries[key].tags, task.tags).Ok?
    ensures Update(b, key, task).Ok?
    ensures WellFormed(Update(b, key, task).value)
  {
    var tagged := UpdateTags(b, key, b.records.entries[key].tags, task.tags).value;
    var r := tagged.(records := tagged.records.Set(key, task));
    assert Update(b, key, task) == Ok(r);
    ReplaceKeepsColumn(b, r, key, task, Todo);
    ReplaceKeepsColumn(b, r, key, task, Doing);
    ReplaceKeepsColumn(b, r, key, task, Done);
  }

  /** Replacing a record by one in the same column leaves every column indexed. */
  lemma ReplaceKeepsColumn(b: Board, r: Board, key: string, task: Task, c: Column)
    requires ColumnIndexed(b, c) && key in b.records.entries
    requires b.records.entries[key].column == task.column
    requires r.columns == b.columns && r.records.entries == b.records.entries[key := task]
    ensures ColumnIndexed(r, c)
  {
  }

  /** `update` that moves the task: it is removed from its old column and then
      stored afresh in the new one. */
  lemma UpdateMovePreservesWellFormed(b: Board, key: string, task: Task)
    requires WellFormed(b) && task.name == key && key in b.records.entries
    requires b.records.entries[key].column != task.column
    requires UpdateTags(b, key, b.records.entries[key].tags, task.tags).Ok?
    ensures Update(b, key, task).Ok?
    ensures WellFormed(Update(b, key, task).value)
  {
    var prev := b.records.entries[key];
    var tagged := UpdateTags(b, key, prev.tags, task.tags).value;
    assert tagged.records == b.records && tagged.columns == b.columns;
    assert WellFormed(tagged);
    RemovePreservesWellFormed(tagged, key);
    var removed := Remove(tagged, key).value;
    InsertPreservesWellFormed(removed, key, task);
    var expected := AddToColumn(removed, key, task.column).(records := removed.records.Set(key, task));
    assert Update(b, key, task) == Ok(expected);
  }

  /** On a well-formed board whose tag step succeeds, `update` with a record named
      after its key never panics on the column step and keeps the board well formed. */
  lemma UpdatePreservesWellFormed(b: Board, key: string, task: Task)
    requires WellFormed(b) && task.name == key
    requires key in b.records.entries ==> UpdateTags(b, key, b.records.entries[key].tags, task.tags).Ok?
    ensures Update(b, key, task).Ok?
    ensures WellFormed(Update(b, key, task).value)
  {
    if key in b.records.entries {
      if b.records.entries[key].column == task.column {
        UpdateInPlacePreservesWellFormed(b, key, task);
      } else {
        UpdateMovePreservesWellFormed(b, key, task);
      }
    }
  }

  /** The names of the records `keys` lead to, restricted to column `c`, are the keys
      of that column in the same order, when every record is stored under its name. */
  lemma {:induction false} NamesInValues(entries: map<string, Task>, keys: seq<string>, c: Column)
    requires NoDups(keys)
    requires forall k :: k in keys ==> k in entries && entries[k].name == k
    ensures NoDups(NamesIn(Values(entries, keys), c))
    ensures forall k :: k in NamesIn(Values(entries, keys), c) <==> k in keys && entries[k].column == c
    decreases |keys|
  {
    if |keys| > 0 {
      var init := keys[..|keys| - 1];
      var last := keys[|keys| - 1];
      assert forall k :: k in keys <==> k in init || k == last;
      assert last !in init;
      NamesInValues(entries, init, c);
      var vs := Values(entries, init);
      var ts := Values(entries, keys);
      assert ts == vs + [entries[last]];
      assert ts[..|ts| - 1] == vs;
      var before := NamesIn(vs, c);
      if entries[last].column == c {
        assert NamesIn(ts, c) == before + [last];
        AppendFresh(before, last);
      } else {
        assert NamesIn(ts, c) == before;
      }
    }
  }

  /** `reindex_columns` repairs the column index from the records alone, whatever
      state the column lists were in. */
  lemma ReindexRestoresWellFormed(b: Board)
    requires b.records.Valid() && KeyedByName(b)
    ensures WellFormed(ReindexColumns(b).0)
  {
    NamesInValues(b.records.entries, b.records.order, Todo);
    NamesInValues(b.records.entries, b.records.order, Doing);
    NamesInValues(b.records.entries, b.records.order, Done);
  }

  /** On a well-formed board, the unfiltered `get_column` of a column is exactly the
      records in that column, in column-list order. */
  lemma GetColumnIsColumn(b: Board, c: Column)
    requires WellFormed(b)
    ensures Names(GetColumn(b, Label(c), None)) == ColumnList(b, Label(c))
    ensures forall task :: task in GetColumn(b, Label(c), None) ==> task.column == c
    ensures forall k :: k in Names(GetColumn(b, Label(c), None)) <==>
                        k in b.records.entries && b.records.entries[k].column == c
  {
    SelectKeysAll(b, ColumnList(b, Label(c)));
  }

  /** On a board whose column and tag indices are both consistent, filtering column
      `c` by tag `t` yields exactly the records in column `c` that carry tag `t`. */
  lemma GetColumnByTag(b: Board, c: Column, t: string)
    requires WellFormed(b) && TagsIndexed(b)
    ensures forall k :: k in Names(GetColumn(b, Label(c), Some(t))) <==>
                        k in b.records.entries && b.records.entries[k].column == c
                        && t in TagsOf(b.records.entries[k])
  {
    var r := GetColumn(b, Label(c), Some(t));
    var ks := SelectKeys(b, ColumnList(b, Label(c)), Some(t));
    assert Names(r) == ks;
    forall k
      ensures TagAdmits(b, Some(t), k) <==> k in TagList(b, t)
    {
    }
  }
}

=== FILE: now.dfy ===
/** The `now` command: print the tasks in progress, one per line, or separated by
    commas when newlines are switched off. */
module NowCommand {
  import opened Results
  import opened Text
  import opened Tasks
  import opened Boards
  import opened BoardProperties

  /** The text `now` writes for the tasks `get_all_tasks` returned. */
  function Now(tasks: seq<Task>, noNewlines: bool): (r: string)
    ensures |NamesIn(tasks, Doing)| == 0 ==> r == ""
    ensures !noNewlines && r != "" ==> r[|r| - 1] == '\n'
    ensures noNewlines ==> r == Join(NamesIn(tasks, Doing), ",")
  {
    var delimiter := if noNewlines then "," else "\n";
    var joined := Join(NamesIn(tasks, Doing), delimiter);
    if joined != "" then joined + (if noNewlines then "" else delimiter) else ""
  }

  /** With no task in progress nothing is written. */
  lemma NowSilentWithoutDoing(tasks: seq<Task>, noNewlines: bool)
    requires forall i :: 0 <= i < |tasks| ==> tasks[i].column != Doing
    ensures Now(tasks, noNewlines) == ""
  {
    NamesInAbsent(tasks, Doing);
  }

  /** Output is empty exactly when there is no task in progress, or a single one
      whose name is empty. */
  lemma NowEmptyIff(tasks: seq<Task>, noNewlines: bool)
    ensures Now(tasks, noNewlines) == "" <==>
            var names := NamesIn(tasks, Doing);
            |names| == 0 || (|names| == 1 && names[0] == "")
  {
    JoinEmptyIff(NamesIn(tasks, Doing), if noNewlines then "," else "\n");
  }

  /** With newlines off, the output is the in-progress names separated by commas with
      no trailing comma: splitting it on commas gives back exactly those names, in
      `get_all_tasks` order (provided some task is in progress and no name holds a comma). */
  lemma NowCommaSeparated(tasks: seq<Task>)
    requires |NamesIn(tasks, Doing)| > 0
    requires forall i :: 0 <= i < |NamesIn(tasks, Doing)| ==> ',' !in NamesIn(tasks, Doing)[i]
    ensures Split(Now(tasks, true), ',') == NamesIn(tasks, Doing)
  {
    SplitJoin(NamesIn(tasks, Doing), ',');
    assert Now(tasks, true) == Join(NamesIn(tasks, Doing), ",");
  }

  /** By default, non-empty output is one line per in-progress name, each ending
      in a newline: dropping the final newline and splitting on newlines gives
      back exactly those names, in `get_all_tasks` order (when no name holds one). */
  lemma NowOnePerLine(tasks: seq<Task>)
    requires forall i :: 0 <= i < |NamesIn(tasks, Doing)| ==> '\n' !in NamesIn(tasks, Doing)[i]
    ensures var out := Now(tasks, false);
            out != "" ==> out[|out| - 1] == '\n' && Split(out[..|out| - 1], '\n') == NamesIn(tasks, Doing)
  {
    var names := NamesIn(tasks, Doing);
    var out := Now(tasks, false);
    if out != "" {
      JoinEmptyIff(names, "\n");
      SplitJoin(names, '\n');
      assert out[..|out| - 1] == Join(names, "\n");
    }
  }

  function Named(name: string, column: Column): Task {
    Task(name, column, None, None)
  }

  /** One task in progress among others: its name and a newline, or its name
      alone when newlines are off. */
  lemma NowSingleDoing()
    ensures var tasks := [Named("task1", Doing), Named("task2", Todo), Named("task3", Done),
                          Named("task4", Done), Named("task5", Done)];
            && Now(tasks, false) == "task1\n"
            && Now(tasks, true) == "task1"
  {
    var tasks := [Named("task1", Doing), Named("task2", Todo), Named("task3", Done),
                  Named("task4", Done), Named("task5", Done)];
    assert tasks == tasks[..1] + tasks[1..];
    NamesInConcat(tasks[..1], tasks[1..], Doing);
    NamesInAbsent(tasks[1..], Doing);
    assert NamesIn(tasks[..1], Doing) == ["task1"];
    assert "task1" + "\n" == "task1\n";
  }

  /** Two tasks in progress: one per line, or comma-separated without a trailing comma. */
  lemma NowTwoDoing()
    ensures var tasks := [Named("task1", Doing), Named("task2", Doing), Named("task3", Done),
                          Named("task4", Done), Named("task5", Done)];
            && Now(tasks, false) == "task1\ntask2\n"
            && Now(tasks, true) == "task1,task2"
  {
    var tasks := [Named("task1", Doing), Named("task2", Doing), Named("task3", Done),
                  Named("task4", Done), Named("task5", Done)];
    TwoInProgress(tasks);
    var names := ["task1", "task2"];
    assert names[1..] == ["task2"];
    assert Join(names, "\n") == "task1" + "\n" + "task2";
    assert Join(names, ",") == "task1" + "," + "task2";
    assert "task1" + "\n" + "task2" + "\n" == "task1\ntask2\n";
    assert "task1" + "," + "task2" == "task1,task2";
  }

  /** The tasks in progress of the two-task sample, in order. */
  lemma TwoInProgress(tasks: seq<Task>)
    requires tasks == [Named("task1", Doing), Named("task2", Doing), Named("task3", Done),
                       Named("task4", Done), Named("task5", Done)]
    ensures NamesIn(tasks, Doing) == ["task1", "task2"]
  {
    assert tasks == tasks[..2] + tasks[2..];
    NamesInConcat(tasks[..2], tasks[2..], Doing);
    NamesInAbsent(tasks[2..], Doing);
    assert tasks[..2][..1] == [Named("task1", Doing)];
    assert NamesIn([Named("task1", Doing)], Doing) == ["task1"];
    assert tasks[..2][1] == Named("task2", Doing);
  }
}

=== FILE: results.dfy ===
/** Optional values and failure-carrying results used throughout the model.
    A Rust `panic!` (from `expect` or `unwrap`) becomes an `Err`. */
module Results {

  datatype Option<+T> = None | Some(value: T) {

    /** The wrapped value, or `default` when absent (Rust's `unwrap_or`). */
    function GetOr(default: T): T {
      match this
      case Some(v) => v
      case None => default
    }
  }

  datatype Result<+T, +E> = Ok(value: T) | Err(error: E) {

    predicate IsFailure() {
      Err?
    }

    function PropagateFailure<U>(): Result<U, E>
      requires Err?
    {
      Err(error)
    }

    function Extract(): T
      requires Ok?
    {
      value
    }
  }
}

=== FILE: seqs.dfy ===
/** The list surgery the board performs on `Vec<String>`: first-occurrence search,
    removal by index, adjacent de-duplication and order-preserving difference. */
module Seqs {
  import opened Results

  /** No element occurs twice. */
  predicate NoDups<T(==)>(s: seq<T>) {
    forall i, j :: 0 <= i < j < |s| ==> s[i] != s[j]
  }

  /** No two neighbouring elements are equal (what `Vec::dedup` establishes). */
  predicate NoAdjacentDups<T(==)>(s: seq<T>) {
    forall i :: 0 < i < |s| ==> s[i - 1] != s[i]
  }

  /** Position of the first occurrence of `x` (Rust's `iter().position(|y| y == x)`). */
  function IndexOf<T(==)>(s: seq<T>, x: T): (r: Option<nat>)
    ensures r.None? <==> x !in s
    ensures r.Some? ==> r.value < |s| && s[r.value] == x && x !in s[..r.value]
  {
    if |s| == 0 then None
    else if s[0] == x then Some(0)
    else
      match IndexOf(s[1..], x)
      case None => None
      case Some(i) =>
        assert s[..i + 1] == [s[0]] + s[1..][..i];
        Some(i + 1)
  }

  /** `Vec::remove(i)`: drop the element at position `i`, keeping the order of the rest. */
  function RemoveAt<T>(s: seq<T>, i: nat): (r: seq<T>)
    requires i < |s|
    ensures |r| == |s| - 1
    ensures multiset(r) == multiset(s) - multiset{s[i]}
  {
    assert s == s[..i] + [s[i]] + s[i + 1..];
    s[..i] + s[i + 1..]
  }

  /** Removing one occurrence from a duplicate-free sequence leaves a duplicate-free
      sequence holding exactly the other elements. */
  lemma RemoveAtNoDups<T>(s: seq<T>, i: nat)
    requires i < |s| && NoDups(s)
    ensures NoDups(RemoveAt(s, i))
    ensures forall y :: y in RemoveAt(s, i) <==> y in s && y != s[i]
  {
    var r := RemoveAt(s, i);
    forall a, b | 0 <= a < b < |r|
      ensures r[a] != r[b]
    {
      var a' := if a < i then a else a + 1;
      var b' := if b < i then b else b + 1;
      assert r[a] == s[a'] && r[b] == s[b'];
    }
    forall y
      ensures y in r <==> y in s && y != s[i]
    {
      if y in r {
        var k :| 0 <= k < |r| && r[k] == y;
        var k' := if k < i then k else k + 1;
        assert s[k'] == y && k' != i;
      }
      if y in s && y != s[i] {
        var k :| 0 <= k < |s| && s[k] == y;
        assert k != i;
        assert r[if k < i then k else k - 1] == y;
      }
    }
  }

  /** The sequence with the first occurrence of `x` removed. */
  function RemoveFirst<T(==)>(s: seq<T>, x: T): (r: seq<T>)
    requires x in s
    ensures |r| == |s| - 1
    ensures multiset(r) == multiset(s) - multiset{x}
  {
    RemoveAt(s, IndexOf(s, x).value)
  }

  /** Removing an element other than the head keeps the head in place. */
  lemma RemoveFirstKeepsHead<T>(s: seq<T>, x: T)
    requires x in s && s[0] != x
    ensures |RemoveFirst(s, x)| > 0 && RemoveFirst(s, x)[0] == s[0]
  {
  }

  /** `Vec::dedup`: collapse every run of equal neighbours to one element. */
  function Dedup<T(==,!new)>(s: seq<T>): (r: seq<T>)
    ensures NoAdjacentDups(r)
    ensures forall x :: x in r <==> x in s
    ensures |r| <= |s|
    ensures |s| > 0 ==> |r| > 0 && r[0] == s[0] && r[|r| - 1] == s[|s| - 1]
  {
    if |s| <= 1 then s
    else if s[0] == s[1] then Dedup(s[1..])
    else
      var rest := Dedup(s[1..]);
      assert forall x :: x in s <==> x == s[0] || x in s[1..];
      [s[0]] + rest
  }

  /** Pushing `x` and de-duplicating a sequence without equal neighbours changes it
      only when its last element is not already `x`, and then only by appending `x`. */
  lemma {:induction false} DedupPush<T(!new)>(s: seq<T>, x: T)
    requires NoAdjacentDups(s)
    ensures Dedup(s + [x]) == if |s| > 0 && s[|s| - 1] == x then s else s + [x]
  {
    if |s| == 0 {
    } else if |s| == 1 {
    } else {
      assert (s + [x])[1..] == s[1..] + [x];
      DedupPush(s[1..], x);
    }
  }

  /** Indexing the same key twice has the effect of indexing it once. */
  lemma DedupPushTwice<T(!new)>(s: seq<T>, x: T)
    ensures Dedup(Dedup(s + [x]) + [x]) == Dedup(s + [x])
  {
    DedupPush(Dedup(s + [x]), x);
  }

  /** Concatenation is associative. */
  lemma ConcatAssoc<T>(a: seq<T>, b: seq<T>, c: seq<T>)
    ensures (a + b) + c == a + (b + c)
  {
  }

  /** Appending a value missing from a duplicate-free sequence keeps it duplicate-free. */
  lemma AppendFresh<T>(s: seq<T>, x: T)
    requires NoDups(s) && x !in s
    ensures NoDups(s + [x])
  {
  }

  /** Appending a value already present gives a sequence with a duplicate. */
  lemma AppendPresent<T>(s: seq<T>, x: T)
    requires x in s
    ensures !NoDups(s + [x])
  {
    var i :| 0 <= i < |s| && s[i] == x;
    assert (s + [x])[i] == (s + [x])[|s|];
  }

  /** Duplicate-free sequences have no equal neighbours. */
  lemma NoDupsNoAdjacent<T>(s: seq<T>)
    requires NoDups(s)
    ensures NoAdjacentDups(s)
  {
  }

  /** The elements of `s` that do not occur in `t`, in their order in `s`. */
  function Without<T(==,!new)>(s: seq<T>, t: seq<T>): (r: seq<T>)
    ensures forall x :: x in r <==> x in s && x !in t
    ensures |r| <= |s|
    ensures NoDups(s) ==> NoDups(r)
  {
    if |s| == 0 then []
    else
      var rest := Without(s[1..], t);
      assert forall x :: x in s <==> x == s[0] || x in s[1..];
      if s[0] in t then rest else [s[0]] + rest
  }

  /** The difference is an order-preserving filter: it distributes over concatenation. */
  lemma {:induction false} WithoutConcat<T(!new)>(a: seq<T>, b: seq<T>, t: seq<T>)
    ensures Without(a + b, t) == Without(a, t) + Without(b, t)
  {
    if |a| == 0 {
      assert a + b == b;
    } else {
      assert (a + b)[1..] == a[1..] + b;
      WithoutConcat(a[1..], b, t);
    }
  }

  /** The difference grows like a filtering loop: visiting one more element of `s`
      pushes it exactly when it does not occur in `t`. */
  lemma WithoutSnoc<T(!new)>(s: seq<T>, x: T, t: seq<T>)
    ensures Without(s + [x], t) == Without(s, t) + (if x in t then [] else [x])
  {
    WithoutConcat(s, [x], t);
    assert Without([x], t) == (if x in t then [] else [x]) by {
      assert [x][1..] == [];
    }
  }

  /** Nothing is left when every element is taken away. */
  lemma {:induction false} WithoutCovered<T(!new)>(s: seq<T>, t: seq<T>)
    requires forall x :: x in s ==> x in t
    ensures Without(s, t) == []
  {
    if |s| > 0 {
      assert s[0] in t;
      WithoutCovered(s[1..], t);
    }
  }
}

=== FILE: standard_actions.dfy ===
/** The board commands of `standard_actions`: add, start, complete, delete,
    clear-done and top, each a short composition of board operations. */
module StandardActions {
  import opened Results
  import opened Seqs
  import opened Text
  import opened Tasks
  import opened Boards
  import opened BoardInvariants
  import opened TagInvariants

  /** `is_valid_key`: the name is not blank once surrounding whitespace is trimmed. */
  function IsValidKey(name: string): (r: bool)
    ensures r <==> exists i :: 0 <= i < |name| && !IsWhitespace(name[i])
  {
    TrimEmptyIffBlank(name);
    |Trim(name)| > 0
  }

  /** `add_item`: create an untagged task unless the name is blank. */
  function AddItem(b: Board, name: string): (r: Board)
    ensures (exists i :: 0 <= i < |name| && !IsWhitespace(name[i])) ==>
              && r.records.Get(name) == Some(Task(name, Todo, None, None))
              && ColumnList(r, Label(Todo)) == ColumnList(b, Label(Todo)) + [name]
              && r.tags == b.tags
    ensures (forall i :: 0 <= i < |name| ==> IsWhitespace(name[i])) ==> r == b
    ensures IsValidKey(name) ==> r == CreateTask(b, name, None)
  {
    if IsValidKey(name) then CreateTask(b, name, None) else b
  }

  /** `move_item`: fetch the task (panicking if it does not exist) and update it
      with only its column changed. */
  function MoveItem(b: Board, name: string, column: Column): (r: Result<Board, Fault>)
    ensures name !in b.records.entries ==> r == Err(NoSuchTask(name))
    ensures name in b.records.entries ==> r == Update(b, name, b.records.entries[name].(column := column))
  {
    match Get(b, name)
    case None => Err(NoSuchTask(name))
    case Some(item) => Update(b, name, item.(column := column))
  }

  /** `start_item`: move a task to Doing. */
  function StartItem(b: Board, name: string): (r: Result<Board, Fault>)
    ensures r == MoveItem(b, name, Doing)
    ensures name !in b.records.entries ==> r == Err(NoSuchTask(name))
    ensures WellFormed(b) && TagsIndexed(b) && name in b.records.entries ==>
              r.Ok? && name in r.value.records.entries && r.value.records.entries[name] == b.records.entries[name].(column := Doing)
  {
    MovedOnConsistentBoard(b, name, Doing);
    MoveItem(b, name, Doing)
  }

  /** `complete_item`: move a task to Done. */
  function CompleteItem(b: Board, name: string): (r: Result<Board, Fault>)
    ensures r == MoveItem(b, name, Done)
    ensures name !in b.records.entries ==> r == Err(NoSuchTask(name))
    ensures WellFormed(b) && TagsIndexed(b) && name in b.records.entries ==>
              r.Ok? && name in r.value.records.entries && r.value.records.entries[name] == b.records.entries[name].(column := Done)
  {
    MovedOnConsistentBoard(b, name, Done);
    MoveItem(b, name, Done)
  }

  /** On a board with consistent indices, moving an existing task succeeds, changes
      only that record's column, leaves the tag index as it was and keeps both
      indices consistent. */
  lemma MovedOnConsistentBoard(b: Board, name: string, column: Column)
    ensures WellFormed(b) && TagsIndexed(b) && name in b.records.entries ==>
              && MoveItem(b, name, column).Ok?
              && var r := MoveItem(b, name, column).value;
              && r.records.entries == b.records.entries[name := b.records.entries[name].(column := column)]
              && r.tags == b.tags
              && WellFormed(r) && TagsIndexed(r)
  {
    if WellFormed(b) && TagsIndexed(b) && name in b.records.entries {
      var prev := b.records.entries[name];
      var task := prev.(column := column);
      UpdatePreservesIndices(b, name, task);
      WithoutCovered(TagsOf(prev), TagsOf(prev));
      assert UpdateTags(b, name, prev.tags, task.tags) == Ok(b);
    }
  }

  /** `delete_item`: remove the task. */
  function DeleteItem(b: Board, name: string): (r: Result<Board, Fault>)
    ensures r == Remove(b, name)
    ensures name !in b.records.entries ==> r == Ok(b)
    ensures WellFormed(b) ==> r.Ok? && r.value.records.entries == b.records.entries - {name}
  {
    DeletedOnWellFormedBoard(b, name);
    Remove(b, name)
  }

  lemma DeletedOnWellFormedBoard(b: Board, name: string)
    ensures WellFormed(b) ==> Remove(b, name).Ok? && Remove(b, name).value.records.entries == b.records.entries - {name}
  {
    if WellFormed(b) {
      RemovePreservesWellFormed(b, name);
    }
  }

  /** `board.remove` for each name in turn, stopping at the first panic. */
  function RemoveEach(b: Board, names: seq<string>): (r: Result<Board, Fault>)
    ensures |names| == 0 ==> r == Ok(b)
    ensures r.Ok? ==> forall k :: k in r.value.records.entries <==> k in b.records.entries && k !in names
    ensures r.Ok? ==> forall k :: k in r.value.records.entries ==> r.value.records.entries[k] == b.records.entries[k]
    decreases |names|
  {
    if |names| == 0 then Ok(b)
    else
      var next :- Remove(b, names[0]);
      assert forall k :: k in names <==> k == names[0] || k in names[1..];
      RemoveEach(next, names[1..])
  }

  /** On a well-formed board, removing a list of names one by one never panics,
      deletes exactly the records of those names and keeps the board well formed. */
  lemma {:induction false} RemoveEachPreservesWellFormed(b: Board, names: seq<string>)
    requires WellFormed(b)
    ensures RemoveEach(b, names).Ok?
    ensures WellFormed(RemoveEach(b, names).value)
    ensures forall k :: k in RemoveEach(b, names).value.records.entries <==>
                        k in b.records.entries && k !in names
    ensures forall k :: k in RemoveEach(b, names).value.records.entries ==>
                        RemoveEach(b, names).value.records.entries[k] == b.records.entries[k]
    decreases |names|
  {
    if |names| > 0 {
      RemovePreservesWellFormed(b, names[0]);
      var next := Remove(b, names[0]).value;
      RemoveEachPreservesWellFormed(next, names[1..]);
      assert forall k :: k in names <==> k == names[0] || k in names[1..];
    }
  }

  /** `clear_done`: remove every task that `get_all_tasks` reports in Done. */
  function ClearDone(b: Board): (r: Result<Board, Fault>)
    ensures r == RemoveEach(b, NamesIn(GetAllTasks(b), Done))
    ensures WellFormed(b) ==>
              && r.Ok? && WellFormed(r.value)
              && r.value.records.entries
                 == map k | k in b.records.entries && b.records.entries[k].column != Done :: b.records.entries[k]
  {
    RemovingDoneClearsDone(b);
    RemoveEach(b, NamesIn(GetAllTasks(b), Done))
  }

  lemma RemovingDoneClearsDone(b: Board)
    ensures WellFormed(b) ==>
              var r := RemoveEach(b, NamesIn(GetAllTasks(b), Done));
              && r.Ok? && WellFormed(r.value)
              && r.value.records.entries
                 == map k | k in b.records.entries && b.records.entries[k].column != Done :: b.records.entries[k]
  {
    if WellFormed(b) {
      var doomed := NamesIn(GetAllTasks(b), Done);
      RemoveEachPreservesWellFormed(b, doomed);
      NamesInValues(b.records.entries, b.records.order, Done);
      KeptOutsideDone(b.records.entries, RemoveEach(b, doomed).value.records.entries, doomed);
    }
  }

  /** The records left after removing exactly the Done ones are the records not in Done. */
  lemma KeptOutsideDone(entries: map<string, Task>, kept: map<string, Task>, doomed: seq<string>)
    requires forall k :: k in doomed <==> k in entries && entries[k].column == Done
    requires forall k :: k in kept <==> k in entries && k !in doomed
    requires forall k :: k in kept ==> kept[k] == entries[k]
    ensures kept == map k | k in entries && entries[k].column != Done :: entries[k]
  {
    var expected := map k | k in entries && entries[k].column != Done :: entries[k];
    assert kept.Keys == expected.Keys;
  }

  /** `top`: make the task top priority in its column. */
  function Top(b: Board, name: string): (r: Result<Board, Fault>)
    ensures r == TopPriority(b, name)
    ensures WellFormed(b) ==> r.Ok? && WellFormed(r.value)
    ensures WellFormed(b) && name in b.records.entries ==>
              var list := ColumnList(r.value, Label(b.records.entries[name].column));
              |list| > 0 && list[0] == name
  {
    PrioritisedOnWellFormedBoard(b, name);
    TopPriority(b, name)
  }

  lemma PrioritisedOnWellFormedBoard(b: Board, name: string)
    ensures WellFormed(b) ==> TopPriority(b, name).Ok? && WellFormed(TopPriority(b, name).value)
    ensures WellFormed(b) && name in b.records.entries ==>
              var list := ColumnList(TopPriority(b, name).value, Label(b.records.entries[name].column));
              |list| > 0 && list[0] == name
  {
    if WellFormed(b) {
      TopPriorityPreservesWellFormed(b, name);
    }
  }
}

=== FILE: stores.dfy ===
/** The key-value store the board is built on (the `Store<T>` trait): get, set, rm and
    get_all. Persistence is abstracted to a map plus the order in which get_all
    enumerates the keys; a key set for the first time is enumerated last. */
module Stores {
  import opened Results
  import opened Seqs

  datatype Store<T> = Store(entries: map<string, T>, order: seq<string>) {

    /** The enumeration order lists every stored key exactly once. */
    ghost predicate Valid() {
      && NoDups(order)
      && forall k :: k in entries <==> k in order
    }

    /** `Store::get`: the value under `key`, if any. */
    function Get(key: string): (r: Option<T>)
      ensures r.Some? <==> key in entries
      ensures r.Some? ==> r.value == entries[key]
    {
      if key in entries then Some(entries[key]) else None
    }

    /** `Store::set`: overwrite or insert; a new key joins the end of the enumeration. */
    function Set(key: string, value: T): (r: Store<T>)
      ensures r.entries == entries[key := value]
      ensures key in entries ==> r.order == order
      ensures key !in entries ==> r.order == order + [key]
      ensures Valid() ==> r.Valid()
    {
      if key in entries then Store(entries[key := value], order)
      else Store(entries[key := value], order + [key])
    }

    /** `Store::rm`: forget `key`; the other keys keep their enumeration order. */
    function Rm(key: string): (r: Store<T>)
      ensures r.entries == entries - {key}
      ensures r.order == Without(order, [key])
      ensures Valid() ==> r.Valid()
    {
      Store(entries - {key}, Without(order, [key]))
    }

    /** `Store::get_all`: the stored values in enumeration order. */
    function GetAll(): (r: seq<T>)
      ensures Valid() ==> |r| == |order| && forall i :: 0 <= i < |order| ==> r[i] == entries[order[i]]
    {
      Values(entries, order)
    }
  }

  /** Forgetting a key and then setting it again stores the same entries as
      overwriting it in place; only the enumeration order can differ. */
  lemma RmThenSet<T>(s: Store<T>, key: string, value: T)
    ensures s.Rm(key).Set(key, value).entries == s.entries[key := value]
  {
    assert s.Rm(key).Set(key, value).entries.Keys == s.entries[key := value].Keys;
  }

  /** The values stored under `keys`, in that order, skipping keys that are absent
      (as the persistent store skips entries it cannot decode). */
  function Values<T>(entries: map<string, T>, keys: seq<string>): (r: seq<T>)
    ensures |r| <= |keys|
    ensures (forall k :: k in keys ==> k in entries) ==>
              |r| == |keys| && forall i :: 0 <= i < |keys| ==> r[i] == entries[keys[i]]
  {
    if |keys| == 0 then []
    else
      var init := keys[..|keys| - 1];
      var last := keys[|keys| - 1];
      assert forall k :: k in init ==> k in keys;
      Values(entries, init) + (if last in entries then [entries[last]] else [])
  }
}

=== FILE: tag.dfy ===
/** The `tag` command: print a task's tags on one line. */
module TagCommand {
  import opened Results
  import opened Text
  import opened Tasks
  import opened Boards

  /** The text `tag` writes for `key`; panics when the task does not exist. */
  function Tag(b: Board, key: string): (r: Result<string, Fault>)
    ensures key !in b.records.entries <==> r == Err(NoSuchTask(key))
    ensures r.Ok? ==> |r.value| > 0 && r.value[|r.value| - 1] == '\n'
    ensures key in b.records.entries && b.records.entries[key].tags.None? ==> r == Ok("[No tags]\n")
  {
    match Get(b, key)
    case None => Err(NoSuchTask(key))
    case Some(task) =>
      var text := match task.tags
        case None => "[No tags]"
        case Some(ts) => Join(ts, ", ");
      assert "[No tags]" + "\n" == "[No tags]\n";
      Ok(text + "\n")
  }

  /** Every tag after the first gains the space that follows each comma. */
  function SpaceAfterFirst(ts: seq<string>): seq<string>
    requires |ts| >= 1
  {
    [ts[0]] + seq(|ts| - 1, i requires 0 <= i < |ts| - 1 => " " + ts[i + 1])
  }

  /** Joining with ", " is joining with "," after putting a space before every tag
      but the first. */
  lemma {:induction false} JoinCommaSpace(ts: seq<string>)
    requires |ts| >= 1
    ensures Join(ts, ", ") == Join(SpaceAfterFirst(ts), ",")
  {
    if |ts| > 1 {
      JoinCommaSpace(ts[1..]);
      var rest := SpaceAfterFirst(ts[1..]);
      var spaced := SpaceAfterFirst(ts);
      assert spaced[1..] == [" " + rest[0]] + rest[1..];
      JoinSpacedHead(rest);
    }
  }

  /** Prefixing the first part with a space prefixes the joined text with one. */
  lemma {:induction false} JoinSpacedHead(parts: seq<string>)
    requires |parts| >= 1
    ensures Join([" " + parts[0]] + parts[1..], ",") == " " + Join(parts, ",")
  {
    var spaced := [" " + parts[0]] + parts[1..];
    if |parts| > 1 {
      assert spaced[1..] == parts[1..];
      var tail := Join(parts[1..], ",");
      assert Join(spaced, ",") == (" " + parts[0]) + "," + tail;
      assert Join(parts, ",") == parts[0] + "," + tail;
      assert (" " + parts[0]) + "," + tail == " " + (parts[0] + "," + tail);
    }
  }

  /** For a task with tags none of which holds a comma, the line `tag` prints splits
      on commas back into the tags, each after the first carrying the space of the
      ", " separator. */
  lemma TagLineSplits(b: Board, key: string)
    requires key in b.records.entries && b.records.entries[key].tags.Some?
    requires |b.records.entries[key].tags.value| >= 1
    requires forall i :: 0 <= i < |b.records.entries[key].tags.value| ==> ',' !in b.records.entries[key].tags.value[i]
    ensures var out := Tag(b, key).value;
            Split(out[..|out| - 1], ',') == SpaceAfterFirst(b.records.entries[key].tags.value)
  {
    var ts := b.records.entries[key].tags.value;
    JoinCommaSpace(ts);
    var spaced := SpaceAfterFirst(ts);
    forall i | 0 <= i < |spaced|
      ensures ',' !in spaced[i]
    {
      if i > 0 {
        assert spaced[i] == " " + ts[i];
      }
    }
    SplitJoin(spaced, ',');
  }

  /** A single tag is printed on its own followed by a newline. */
  lemma TagSingle(b: Board, key: string, t: string)
    requires key in b.records.entries && b.records.entries[key].tags == Some([t])
    ensures Tag(b, key) == Ok(t + "\n")
  {
  }

  /** Two tags are printed separated by ", ". */
  lemma TagTwo(b: Board, key: string)
    requires key in b.records.entries && b.records.entries[key].tags == Some(["tag1", "tag2"])
    ensures Tag(b, key) == Ok("tag1, tag2\n")
  {
    var ts := ["tag1", "tag2"];
    assert ts[1..] == ["tag2"];
    assert Join(ts, ", ") == "tag1" + ", " + "tag2";
    assert "tag1" + ", " + "tag2" + "\n" == "tag1, tag2\n";
  }
}

=== FILE: tag_invariants.dfy ===
/** How the board's operations treat the tag index: `create_task` on a new key and
    `update` keep it consistent with the records, `remove` does not. */
module TagInvariants {
  import opened Results
  import opened Seqs
  import opened Tasks
  import opened Boards
  import opened BoardProperties
  import opened BoardInvariants

  /** The tag diff between two task records, in terms of their tag lists: what is
      added is new, what is removed is gone, and neither list repeats a tag. */
  lemma TagDiffOfTasks(prev: Task, task: Task)
    requires NoDups(TagsOf(prev)) && NoDups(TagsOf(task))
    ensures var d := TagDiff(prev.tags, task.tags);
            && (forall t :: t in d.0 <==> t in TagsOf(task) && t !in TagsOf(prev))
            && (forall t :: t in d.1 <==> t in TagsOf(prev) && t !in TagsOf(task))
            && NoDups(d.0) && NoDups(d.1)
  {
  }

  /** Indexing a key under tags whose duplicate-free lists do not hold it appends
      the key to each of those lists and leaves the others alone. */
  lemma IndexFreshTags(b: Board, ts: seq<string>, key: string)
    requires forall t :: t in ts ==> key !in TagList(b, t) && NoDups(TagList(b, t))
    ensures forall t :: TagList(IndexTags(b, ts, key), t)
                        == if t in ts then TagList(b, t) + [key] else TagList(b, t)
  {
    forall t | t in ts
      ensures Dedup(TagList(b, t) + [key]) == TagList(b, t) + [key]
    {
      NoDupsNoAdjacent(TagList(b, t));
      DedupPush(TagList(b, t), key);
    }
  }

  /** `create_task` on a key that has no record keeps the tag index consistent. */
  lemma CreateTaskPreservesTagsIndexed(b: Board, key: string, tag: Option<string>)
    requires TagsIndexed(b) && key !in b.records.entries
    ensures TagsIndexed(CreateTask(b, key, tag))
  {
    var r := CreateTask(b, key, tag);
    var task := NewTask(key, tag);
    assert r.records.entries == b.records.entries[key := task];
    assert forall k :: k in r.records.entries ==> NoDups(TagsOf(r.records.entries[k]));
    forall t
      ensures NoDups(TagList(r, t))
      ensures forall k :: k in TagList(r, t) <==> k in r.records.entries && t in TagsOf(r.records.entries[k])
    {
      if tag == Some(t) {
        assert TagList(r, t) == Dedup(TagList(b, t) + [key]);
      } else {
        assert TagList(r, t) == TagList(b, t);
      }
      CreatedTagConsistent(b.records.entries, key, task, t, TagList(b, t), TagList(r, t));
    }
  }

  /** The per-tag step of the above: the list of tag `t` after the new record. */
  lemma CreatedTagConsistent(
    entries: map<string, Task>, key: string, task: Task, t: string,
    before: seq<string>, after: seq<string>)
    requires key !in entries
    requires NoDups(before)
    requires forall k :: k in before <==> k in entries && t in TagsOf(entries[k])
    requires after == if t in TagsOf(task) then Dedup(before + [key]) else before
    ensures NoDups(after)
    ensures forall k :: k in after <==> k in entries[key := task] && t in TagsOf(entries[key := task][k])
  {
    assert key !in before;
    if t in TagsOf(task) {
      NoDupsNoAdjacent(before);
      DedupPush(before, key);
      AppendFresh(before, key);
    }
  }

  /** On a board whose two indices are consistent, `update` with a record named
      after its key and carrying no repeated tag never panics, and leaves both
      indices consistent with the new record. */
  lemma UpdatePreservesIndices(b: Board, key: string, task: Task)
    requires WellFormed(b) && TagsIndexed(b)
    requires task.name == key && NoDups(TagsOf(task))
    ensures Update(b, key, task).Ok?
    ensures WellFormed(Update(b, key, task).value)
    ensures TagsIndexed(Update(b, key, task).value)
  {
    if key in b.records.entries {
      TagStepShifts(b, key, task);
      UpdatePreservesWellFormed(b, key, task);
      UpdateKeepsTagsIndexed(b, key, task, Update(b, key, task).value);
    }
  }

  /** The tag half of the above, for the board a successful update produced. */
  lemma UpdateKeepsTagsIndexed(b: Board, key: string, task: Task, r: Board)
    requires TagsIndexed(b) && key in b.records.entries && NoDups(TagsOf(task))
    requires Update(b, key, task) == Ok(r)
    ensures TagsIndexed(r)
  {
    var prev := b.records.entries[key];
    var d := TagDiff(prev.tags, task.tags);
    TagDiffOfTasks(prev, task);
    TagStepShifts(b, key, task);
    var tagged := UpdateTags(b, key, prev.tags, task.tags).value;
    assert forall t :: TagList(r, t) == TagList(tagged, t);
    UpdateTagsConsistent(b, key, task, d.0, d.1, r);
  }

  /** On a consistent tag index, the tag step of `update` never panics and shifts
      each tag list by the tag difference. */
  lemma TagStepShifts(b: Board, key: string, task: Task)
    requires TagsIndexed(b) && key in b.records.entries && NoDups(TagsOf(task))
    ensures var prev := b.records.entries[key];
            var d := TagDiff(prev.tags, task.tags);
            && UpdateTags(b, key, prev.tags, task.tags).Ok?
            && forall t :: TagList(UpdateTags(b, key, prev.tags, task.tags).value, t)
                           == TagShift(TagList(b, t), key, t in d.0, t in d.1)
  {
    var prev := b.records.entries[key];
    var d := TagDiff(prev.tags, task.tags);
    TagDiffOfTasks(prev, task);
    IndexFreshTags(b, d.0, key);
    var b1 := IndexTags(b, d.0, key);
    forall t | t in d.1
      ensures key in TagList(b1, t)
    {
    }
    RmTagIndexDistinct(b1, d.1, key);
  }

  /** A tag list after an update: the key appended when the tag was added, its
      first occurrence removed when the tag was dropped. */
  function TagShift(before: seq<string>, key: string, added: bool, removed: bool): seq<string> {
    if removed && key in before then RemoveFirst(before, key)
    else if added then before + [key]
    else before
  }

  lemma UpdateTagsConsistent(
    b: Board, key: string, task: Task, added: seq<string>, removed: seq<string>, r: Board)
    requires TagsIndexed(b) && NoDups(TagsOf(task)) && key in b.records.entries
    requires forall t :: t in added <==> t in TagsOf(task) && t !in TagsOf(b.records.entries[key])
    requires forall t :: t in removed <==> t in TagsOf(b.records.entries[key]) && t !in TagsOf(task)
    requires r.records.entries == b.records.entries[key := task]
    requires forall t :: TagList(r, t) == TagShift(TagList(b, t), key, t in added, t in removed)
    ensures TagsIndexed(r)
  {
    var entries := r.records.entries;
    assert forall k :: k in entries ==> NoDups(TagsOf(entries[k]));
    TagListsAfterUpdate(b, key, task, added, removed, r);
  }

  /** Every tag list after the update is duplicate-free and lists exactly the
      records carrying the tag. */
  lemma TagListsAfterUpdate(
    b: Board, key: string, task: Task, added: seq<string>, removed: seq<string>, r: Board)
    requires TagsIndexed(b) && key in b.records.entries
    requires forall t :: t in added <==> t in TagsOf(task) && t !in TagsOf(b.records.entries[key])
    requires forall t :: t in removed <==> t in TagsOf(b.records.entries[key]) && t !in TagsOf(task)
    requires r.records.entries == b.records.entries[key := task]
    requires forall t :: TagList(r, t) == TagShift(TagList(b, t), key, t in added, t in removed)
    ensures forall t :: NoDups(TagList(r, t))
    ensures forall t, k :: k in TagList(r, t) <==> k in r.records.entries && t in TagsOf(r.records.entries[k])
  {
    forall t
      ensures NoDups(TagList(r, t))
      ensures forall k :: k in TagList(r, t) <==> k in r.records.entries && t in TagsOf(r.records.entries[k])
    {
      OneTagConsistent(b.records.entries, key, task, t, t in added, t in removed, TagList(b, t), TagList(r, t));
    }
  }

  /** The per-tag step of the above: the list of tag `t` after the update. */
  lemma OneTagConsistent(
    entries: map<string, Task>, key: string, task: Task, t: string,
    added: bool, removed: bool, before: seq<string>, after: seq<string>)
    requires key in entries
    requires NoDups(before)
    requires forall k :: k in before <==> k in entries && t in TagsOf(entries[k])
    requires added <==> t in TagsOf(task) && t !in TagsOf(entries[key])
    requires removed <==> t in TagsOf(entries[key]) && t !in TagsOf(task)
    requires after == TagShift(before, key, added, removed)
    ensures NoDups(after)
    ensures forall k :: k in after <==> k in entries[key := task] && t in TagsOf(entries[key := task][k])
  {
    if removed {
      assert key in before;
      RemoveAtNoDups(before, IndexOf(before, key).value);
    } else if added {
      assert key !in before;
      AppendFresh(before, key);
    }
  }

  /** `remove` leaves the tag lists as they were, so a removed task that carried
      a tag stays listed under it with no record behind it: the tag index is no
      longer consistent. */
  lemma RemoveLeavesStaleTag(b: Board, key: string, t: string)
    requires WellFormed(b) && TagsIndexed(b)
    requires key in b.records.entries && t in TagsOf(b.records.entries[key])
    ensures Remove(b, key).Ok?
    ensures key in TagList(Remove(b, key).value, t)
    ensures key !in Remove(b, key).value.records.entries
    ensures !TagsIndexed(Remove(b, key).value)
  {
    RemovePreservesWellFormed(b, key);
    var r := Remove(b, key).value;
    assert key in TagList(b, t);
    assert r.tags == b.tags;
    assert key in TagList(r, t) && key !in r.records.entries;
    StaleKeyBreaksTagsIndexed(r, key, t);
  }

  /** A tag list naming a key that has no record contradicts tag consistency. */
  lemma StaleKeyBreaksTagsIndexed(b: Board, key: string, t: string)
    requires key in TagList(b, t) && key !in b.records.entries
    ensures !TagsIndexed(b)
  {
  }
}

=== FILE: tasks.dfy ===
/** The task record: a name (its key), the workflow column it sits in, an optional
    description and an optional list of tags. */
module Tasks {
  import opened Results

  datatype Column = Todo | Doing | Done

  datatype Task = Task(
    name: string,
    column: Column,
    description: Option<string>,
    tags: Option<seq<string>>)

  /** The column-store key of a column: its variant name in lower case. */
  function Label(c: Column): (r: string)
    ensures |r| > 0 && forall i :: 0 <= i < |r| ==> 'a' <= r[i] <= 'z'
  {
    match c
    case Todo => "todo"
    case Doing => "doing"
    case Done => "done"
  }

  /** The tags of a task, none when the list is absent. */
  function TagsOf(t: Task): seq<string> {
    t.tags.GetOr([])
  }

  /** Distinct columns are stored under distinct labels. */
  lemma LabelInjective(c: Column, d: Column)
    ensures Label(c) == Label(d) <==> c == d
  {
  }
}

=== FILE: text.dfy ===
/** String helpers of Rust's `str` used by the commands: `trim`, `join` and,
    as the reference against which `join` is checked, splitting on a separator. */
module Text {
  import opened Results
  import opened Seqs

  /** Rust's `char::is_whitespace`: the Unicode White_Space property. */
  predicate IsWhitespace(c: char) {
    || ('\U{0009}' <= c <= '\U{000D}')
    || c == '\U{0020}'
    || c == '\U{0085}'
    || c == '\U{00A0}'
    || c == '\U{1680}'
    || ('\U{2000}' <= c <= '\U{200A}')
    || c == '\U{2028}'
    || c == '\U{2029}'
    || c == '\U{202F}'
    || c == '\U{205F}'
    || c == '\U{3000}'
  }

  /** `str::trim_start`: the suffix left after dropping leading whitespace. */
  function TrimStart(s: string): (r: string)
    ensures |r| <= |s| && r == s[|s| - |r|..]
    ensures forall i :: 0 <= i < |s| - |r| ==> IsWhitespace(s[i])
    ensures |r| > 0 ==> !IsWhitespace(r[0])
  {
    if |s| > 0 && IsWhitespace(s[0]) then TrimStart(s[1..]) else s
  }

  /** `str::trim_end`: the prefix left after dropping trailing whitespace. */
  function TrimEnd(s: string): (r: string)
    ensures |r| <= |s| && r == s[..|r|]
    ensures forall i :: |r| <= i < |s| ==> IsWhitespace(s[i])
    ensures |r| > 0 ==> !IsWhitespace(r[|r| - 1])
  {
    if |s| > 0 && IsWhitespace(s[|s| - 1]) then TrimEnd(s[..|s| - 1]) else s
  }

  /** `str::trim`: leading and trailing whitespace removed. */
  function Trim(s: string): string {
    TrimEnd(TrimStart(s))
  }

  /** A string trims to nothing exactly when every character in it is whitespace. */
  lemma TrimEmptyIffBlank(s: string)
    ensures |Trim(s)| == 0 <==> forall i :: 0 <= i < |s| ==> IsWhitespace(s[i])
  {
    var u := TrimStart(s);
    if |Trim(s)| == 0 {
      assert |u| == 0;
    } else {
      assert |u| > 0 && !IsWhitespace(u[0]) && u[0] == s[|s| - |u|];
    }
  }

  /** `[String]::join(sep)`: the parts with `sep` between neighbours. */
  function Join(parts: seq<string>, sep: string): string {
    if |parts| == 0 then ""
    else if |parts| == 1 then parts[0]
    else parts[0] + sep + Join(parts[1..], sep)
  }

  /** Cut `s` at every occurrence of `sep`; the pieces never contain `sep`. */
  function Split(s: string, sep: char): (r: seq<string>)
    ensures |r| >= 1
    ensures forall i :: 0 <= i < |r| ==> sep !in r[i]
    decreases |s|
  {
    match IndexOf(s, sep)
    case None => [s]
    case Some(i) => [s[..i]] + Split(s[i + 1..], sep)
  }

  /** Joining with a one-character separator that no part contains can be undone by
      splitting: the parts come back unchanged, in order. */
  lemma {:induction false} SplitJoin(parts: seq<string>, sep: char)
    requires |parts| >= 1
    requires forall i :: 0 <= i < |parts| ==> sep !in parts[i]
    ensures Split(Join(parts, [sep]), sep) == parts
  {
    if |parts| > 1 {
      var rest := Join(parts[1..], [sep]);
      var s := parts[0] + [sep] + rest;
      assert s[..|parts[0]|] == parts[0];
      assert s[|parts[0]|] == sep;
      assert s[|parts[0]| + 1..] == rest;
      assert IndexOf(s, sep) == Some(|parts[0]|);
      SplitJoin(parts[1..], sep);
    }
  }

  /** Splitting and joining back with the same separator gives the original string. */
  lemma {:induction false} JoinSplit(s: string, sep: char)
    ensures Join(Split(s, sep), [sep]) == s
    decreases |s|
  {
    match IndexOf(s, sep)
    case None =>
    case Some(i) =>
      var rest := Split(s[i + 1..], sep);
      var parts := [s[..i]] + rest;
      assert parts[1..] == rest;
      assert Join(parts, [sep]) == s[..i] + [sep] + Join(rest, [sep]);
      JoinSplit(s[i + 1..], sep);
      assert s == s[..i] + [sep] + s[i + 1..];
  }

  /** With a non-empty separator the joined text is empty only when there is nothing
      to join or a single empty part. */
  lemma JoinEmptyIff(parts: seq<string>, sep: string)
    requires |sep| > 0
    ensures Join(parts, sep) == "" <==> |parts| == 0 || (|parts| == 1 && parts[0] == "")
  {
    if |parts| > 1 {
      assert |Join(parts, sep)| >= |sep|;
    }
  }
}
